=== FILE: README.md ===
# simple-crawler: a Dafny model of the crawler core

This project models the sequential core of a small web crawler backend:

- **Link normalizer.** `link_normalizer` resolves an anchor's `href` against the URL of the page it was found on.
- **Page records.** `get_url_instance_from_response` turns an HTTP response into a `CrawletUrl` record. `get_page_content` wraps one fetch and its transport-error sentinel.
- **Breadth-first crawl.** `crawl_url` crawls from a root URL down to a depth bound.
- **Task store.** The task and crawled-URL repositories are modelled over in-memory tables, with `get_to_run`, `update`, `get_list`, `get_list_by_state` and `save_many`.
- **Task execution and lifecycle.** `execute_task` runs a claimed task. Workers interleave claims and completions, each repository call taken as one atomic step. A task's state moves only forward: PENDING, then RUNNING, then COMPLETED.

Module layout, following the program's files:

| file | module | models |
|---|---|---|
| `wrappers.dfy` | `Wrappers` | `Option` and `Result` |
| `seqs.dfy` | `Seqs` | `Distinct`: a list without repeats, shared by the crawl and the life cycle |
| `models.dfy` | `Models` | `backend/storage/models.py`: `TaskState`, `Task`, `CrawletUrl`, defaults and the `max_depth >= 1` constraint |
| `urls.dfy` | `Urls` | the part of Python's `urllib.parse.urlparse` that the normalizer reads, and `str.startswith` |
| `crawler.dfy` | `Crawler` | `link_normalizer`, `get_url_instance_from_response`, `get_page_content` |
| `crawl.dfy` | `Crawl` | `crawl_url`, and its specification as bounded reachability in the link graph |
| `repositories.dfy` | `Repositories` | `BaseRepository` and `TaskRepository` over sequences of rows |
| `worker.dfy` | `Worker` | `execute_task` |
| `lifecycle.dfy` | `Lifecycle` | interleaved atomic claims and completions; no regression; under atomic claims, no task handed out twice |

Modelling choices:

- **The network.** The network is a finite map `Web` from URL to `Responded(response)` or `HttpError`. A URL the map does not list fails at transport level.
- **The HTML parser.** A `Response` already carries what BeautifulSoup would extract: the optional `<title>` text, and the optional `href` of every `<a>`, in document order.
- **The crawl's specification.** A URL is visited iff `max_depth >= 1` and the URL lies within `max_depth - 1` links of the root in the link graph of the records fetched. The proof rests on five loop invariants: the bookkeeping of the visited map, the FIFO order of frontier depths, soundness, a closure invariant, and the root being fetched first. Termination is measured by the unvisited part of the finite universe (the root plus every link in the map), then by the queue length.
- **Tables.** A table is a sequence of rows in scan order, the order in which queries without `ORDER BY` return them. The `id` primary key is SQLite's rowid, so scan order is id order (`Repositories.InRowidOrder`). A row inserted with an explicit unused id takes its place in that order, not the last place.
  - `OFFSET` and `LIMIT` follow SQLite: a negative offset counts as 0, and a negative limit means no limit.
  - A row inserted without an id gets one more than the largest id, or 1 in an empty table.
  - An explicit id that is already in use raises an integrity error, and the whole batch is rolled back.
- **`update`.** The argument is a patch with one optional field per column: the fields pydantic reports as explicitly set (`exclude_unset=True`). A task that `get_to_run` loaded and then marked COMPLETED has only `state` set, so the patch `execute_task` sends is `CompletionPatch`.

Behaviour of the code worth noting:

- **No link filtering.** `crawl_url` takes only the root URL and `max_depth`. It applies no domain allow-list and no extension blacklist, although `Task` stores both lists.
- **Visited keys.** The visited map is keyed by the queued URL (crawler.py line 60). The record's `url` is `str(response.url)` (line 23): the requested URL as httpx normalizes it, which need not equal the queued key. The client does not follow redirects, so a 3xx answer becomes a record with that status and no links.
- **Links form a list.** The links of a record are a list in document order, duplicates included, not a set.
- **Double slash.** With a non-empty base path, relative links get a double slash: base `http://a.com/x` and href `y` give `http://a.com//x/y`. This is because `urlparse` keeps the path's leading `/` (line 17).

## Model

| member | source | states |
|---|---|---|
| Models.ParseState | backend/storage/models.py:7-10 | a string value maps back to the state that carries it, and a value no state carries is rejected |
| Models.StateValueRoundTrip | backend/storage/models.py:7-10 | each of the three states reads back as itself from its string value |
| Models.NewTask | backend/storage/models.py:13-19 | validation succeeds iff `max_depth` is omitted or at least 1; omitted fields take their defaults: depth 1, empty domains and blacklist, PENDING; no id before storage |
| Models.NewCrawletUrl | backend/storage/models.py:23-31 | a record built from a URL and a status alone satisfies the page-record invariant (size and title absent together, so no links), and belongs to no task and has no id yet |
| Urls.UrlParseJoin | backend/crawler/crawler.py:12 | parsing `scheme://netloc/path` of a simple base URL gives back exactly that scheme, netloc and path, with empty params, query and fragment |
| Crawler.LinkNormalizer | backend/crawler/crawler.py:8-19 | an href starting with "http" is returned unchanged; any other href yields a URL that begins with the base's `scheme://netloc` and ends with the href |
| Crawler.NormalizeRooted | backend/crawler/crawler.py:12-14 | an href starting with '/' is appended to `scheme://netloc` of the base |
| Crawler.NormalizeRelative | backend/crawler/crawler.py:16-19 | any other relative href goes after `scheme://netloc/` when the base has no path, otherwise after `scheme://netloc/` + path + '/' |
| Crawler.NormalizeIdempotent | backend/crawler/crawler.py:8-19 | against an http(s) base, normalizing a normalized link leaves it unchanged |
| Crawler.ResolveKeepsHttp | backend/crawler/crawler.py:12-19 | every relative href resolved against a base whose scheme starts with "http" yields a link starting with "http" |
| Crawler.UrlParseExample | backend/crawler/crawler.py:12 | "http://a.com/x" parses to scheme "http", netloc "a.com", path "/x" |
| Crawler.UrlParseNoPathExample | backend/crawler/crawler.py:12 | "http://a.com" parses with an empty path |
| Crawler.ResolveExamples | backend/crawler/crawler.py:13-19 | "/y" gives "http://a.com/y"; "y" gives "http://a.com/y" with no base path and "http://a.com//x/y" with base path "/x" |
| Crawler.NormalizeAbsoluteExample | backend/crawler/crawler.py:9-10 | an absolute "http://b.com" href is kept as it is |
| Crawler.Hrefs | backend/crawler/crawler.py:34-35 | the followed hrefs are exactly the anchors' hrefs that are present and non-empty |
| Crawler.HrefsAppend | backend/crawler/crawler.py:34-35 | followed hrefs keep document order and duplicates: those of two consecutive stretches of anchors are those of the first, then those of the second |
| Crawler.HrefsSingle | backend/crawler/crawler.py:35 | one anchor contributes its href iff the href is present and non-empty |
| Crawler.NormalizeLinks | backend/crawler/crawler.py:34-37 | one link per followed href, in document order, each normalized against the page URL |
| Crawler.GetUrlInstanceFromResponse | backend/crawler/crawler.py:22-39 | URL and status are kept; size, title and links are present iff the status is 200 and the Content-Type (default "unknown") starts with "text/html"; then size is the text length, the title falls back to "", and links are normalized against the record's URL |
| Crawler.GetPageContent | backend/crawler/crawler.py:42-48 | a response gives its record; a transport error gives the requested URL with status 404 and no links, title or size |
| Crawler.LinksNeedResponse | backend/crawler/crawler.py:42-48 | a record with links came from a 200 response |
| Crawl.CrawlUrl | backend/crawler/crawler.py:51-65 | one record per visited URL, each the fetch of that URL and none fetched twice; the visited URLs are exactly those within `max_depth - 1` links of the root; the root comes first, and nothing is visited iff `max_depth < 1` |
| Crawl.Visit | backend/crawler/crawler.py:56-63 | one iteration keeps the crawl invariant and decreases the termination measure |
| Crawl.ClosedIsComplete | backend/crawler/crawler.py:57-63 | when the frontier is exhausted, every URL within n < `max_depth` links has been fetched, at depth at most n |
| Crawl.WithinMonotone | backend/crawler/crawler.py:57 | a URL within n links is within any larger number of links |
| Crawl.DepthBoundExample | backend/crawler/crawler.py:51-65 | with A→{B,C} and B→{D}, exactly A, B and C lie within one link of A, so `max_depth` 2 visits exactly those; D needs two |
| Repositories.StartAt | backend/storage/repositories.py:59 | the window starts at the offset when it lies inside the table, at 0 for a negative offset, and at the end for an offset past it |
| Repositories.GetList | backend/storage/repositories.py:57-60 | the rows in positions [offset, offset + limit), in scan order: at most `limit` rows, and fewer only when the table ends |
| Repositories.WithState | backend/storage/repositories.py:72 | exactly the rows in the given state |
| Repositories.WithStateAppend | backend/storage/repositories.py:72 | the filter keeps scan order: the matches of two consecutive stretches of the table are those of the first, then those of the second |
| Repositories.GetListByState | backend/storage/repositories.py:67-74 | only rows in the given state, at most `limit` of them, and all of them when the window covers the table |
| Repositories.FirstPending | backend/storage/repositories.py:79-82 | the first PENDING row, or none iff no row is PENDING |
| Repositories.GetToRun | backend/storage/repositories.py:76-89 | none and an unchanged table iff no task is PENDING; otherwise one task that was PENDING is stored as RUNNING and returned, and every other row is unchanged |
| Repositories.GetToRunKeepsKeys | backend/storage/repositories.py:85-88 | a claim keeps every row's id, and so the primary-key constraint |
| Repositories.GetToRunTwiceDistinct | backend/storage/repositories.py:76-89 | two successive claims never return the same task id |
| Repositories.ApplyPatchIdempotent | backend/storage/repositories.py:46-47 | applying the same patch twice gives the same row as applying it once |
| Repositories.ApplyPatchFrame | backend/storage/repositories.py:46-47 | a patch that sets no field leaves the row as it is, and one that sets only the state changes only the state |
| Repositories.Lookup | backend/storage/repositories.py:42 | finds the row with the given id, and finds nothing iff the id is missing or no row has it |
| Repositories.Update | backend/storage/repositories.py:40-51 | "Instance not found" iff no row has the instance's id; otherwise the patch is applied to that row and every other row is unchanged |
| Repositories.UpdateKeyed | backend/storage/repositories.py:40-51 | under unique keys, the patched row is exactly the one with the id, and the keys are kept |
| Repositories.MaxId | backend/storage/repositories.py:35-38 | the largest stored id: one of the ids, no smaller than any other, and absent iff no row has an id |
| Repositories.NextId | backend/storage/repositories.py:35-38 | the id given to a new row exceeds every stored id |
| Repositories.Slot | backend/storage/models.py:24 | where a row with a given id falls in id order: before the first row with a larger id, or last when none has one |
| Repositories.Insert | backend/storage/repositories.py:35-38 | fails with an integrity error iff an explicit id is already in use; otherwise the table grows by exactly one row |
| Repositories.InsertPlaces | backend/storage/repositories.py:35-38 | the inserted row has an id no other row has and is otherwise the record; every row before it and after it is kept in order, no row before it has a larger id and the row after it does; a record without an id lands last |
| Repositories.InsertKeeps | backend/storage/repositories.py:35-38 | an insert keeps unique keys unique and a table in id order in id order |
| Repositories.InsertBelowExample | backend/storage/repositories.py:35-38 | after inserting id 2 into a table holding id 5, `get_list(0, 1)` returns the id-2 row |
| Repositories.SaveMany | backend/storage/repositories.py:35-38 | a batch without ids always succeeds and is appended in order, each row with an id and otherwise as given; any successful batch adds one row per record |
| Repositories.SaveManyKeeps | backend/storage/repositories.py:35-38 | a successful batch keeps unique keys unique and a table in id order in id order |
| Worker.TagRecords | backend/crawler/worker.py:19-20 | every record gets the task's id and nothing else changes |
| Worker.CompleteTask | backend/crawler/worker.py:23-24 | fails iff the task is not stored; otherwise its row becomes COMPLETED with every other field kept, and no other row changes |
| Worker.ExecuteTask | backend/crawler/worker.py:16-24 | crawls from the task's own URL and depth; the crawled records are appended in one batch, each with an id and the task's id, the table before them kept, and a table in id order stays in id order; the task is then marked COMPLETED whatever the pages' statuses |
| Lifecycle.ClaimStep | backend/storage/repositories.py:76-89 | an idle worker's claim keeps the invariant; the system is left exactly as it was iff no task is PENDING, and otherwise exactly one row changes, from PENDING to RUNNING, and the worker then holds that task |
| Lifecycle.FinishStep | backend/crawler/worker.py:23-24 | finishing keeps the invariant; the row with the held task's id goes from RUNNING to COMPLETED, every other row is unchanged, and the worker is idle again |
| Lifecycle.StepPreservesInv | backend/crawler/worker.py:30-32 | each step keeps unique keys, every held task RUNNING and no task held twice; each stored task stays put, goes PENDING→RUNNING, or goes RUNNING→COMPLETED |
| Lifecycle.RunNeverRegresses | backend/crawler/worker.py:30-32 | along any interleaving the invariant holds and no task's state moves back; a task that left PENDING never returns to it |
| Lifecycle.ClaimsDistinct | backend/crawler/worker.py:30-32 | along any interleaving of atomic calls, every task handed out was PENDING at the start, and no task is handed out twice |
| Lifecycle.ClaimLeavesPending | backend/storage/repositories.py:85-88 | a claimed task is no longer PENDING, so no later claim returns it |

## Left out

- HTTP via httpx and HTML parsing via BeautifulSoup. These are foreign libraries. The network is a finite map, and a response carries the title and anchor hrefs already extracted.
- Exceptions from `client.get` other than `httpx.HTTPError`, such as an invalid URL. They propagate out of the crawl, and the model has no such outcome.
- The netloc validation in `urlsplit` that can raise `ValueError`: the IPv6 bracket check, and the NFKC check `_checknetloc` makes on a non-ASCII netloc. `UrlParse` has no netloc validation, so `UrlParseJoin` covers only netlocs of printable ASCII without brackets.
- Non-ASCII case folding of schemes. Schemes are lower-cased in ASCII only, which is exact for the characters a scheme may hold.
- The SQLite and SQLModel engine, sessions, the `lru_cache` engine singleton and `init_db`. These are I/O plumbing. Tables are sequences.
- `BaseRepository.save` and `BaseRepository.get`. They are used only by the HTTP API, which is not part of this model.
- `backend/api/main.py`, including its `/stats` endpoint. It is a thin passthrough layer.
- The `worker` loop, its semaphore, `main`, and the random sleep in `get_to_run`. These are timing and process start-up. Each repository call is one atomic step of `Lifecycle.Step`.
- The value `update` returns is its own argument, so it carries no information about the store. The model returns the updated table instead.
- `created_at` timestamps. These are wall-clock values with no behaviour.
- Lifecycle.ClaimsDistinct: this holds only when each claim is atomic, and the program's claims are not. The workers are coroutines on one event loop, and `get_to_run` awaits between its SELECT (repositories.py lines 79-82) and its COMMIT (line 87). A second worker can select the same PENDING row inside that window, and then both workers return the task. `Repositories.GetToRunTwiceDistinct` is about two calls made one after the other, and is not affected.
- Crawl.CrawlUrl: states which URLs are visited and what each record holds. It does not state the order of records beyond the root coming first.
- Repositories.GetListByState: states only three things: the rows' state, the `limit` bound, and completeness for a window that covers the table. It does not give the exact window contents.
- Repositories.SaveMany: guarantees success, and says where each row lands, only for batches without explicit ids. For other batches it gives the row count, unique keys and id order. `Insert` and `InsertPlaces` state exactly what one insert with an explicit id does.
- Crawler.LinkNormalizer: the exact output is proved only for simple base URLs: a lower-case alphabetic scheme, a printable-ASCII netloc without brackets, and no query, fragment, params, control characters or spaces. This is done by `NormalizeRooted` and `NormalizeRelative`. For other bases only the prefix and suffix are stated.
- Worker.ExecuteTask: if the completion update fails, the model returns the error. The batch of records stays saved, as it is committed before the update.

=== FILE: crawl.dfy ===
/** The breadth-first crawl of backend/crawler/crawler.py (`crawl_url`): a FIFO
    frontier of (url, depth) pairs seeded with (root, 0), and a visited map
    keyed by the queued URL. A pair is skipped when its URL is already a key or
    its depth has reached `max_depth`; otherwise the URL is fetched once, its
    record stored under that URL, and every link of the record queued one level
    deeper, with no filtering. */
module Crawl {
  import opened Wrappers
  import opened Models
  import opened Crawler
  import opened Seqs

  /** Who links to whom: the links of the record fetched for each URL. */
  type LinkGraph = map<string, seq<string>>

  /** The links of `u`; a URL the graph does not list has none. */
  function Outlinks(g: LinkGraph, u: string): seq<string> {
    if u in g then g[u] else []
  }

  /** The link graph of a network: a URL it does not answer yields no links. */
  ghost function LinkGraphOf(web: Web): LinkGraph {
    map p | p in web :: GetPageContent(web, p).links
  }

  lemma OutlinksOf(web: Web, u: string)
    ensures Outlinks(LinkGraphOf(web), u) == GetPageContent(web, u).links
  {
    if u !in web {
      assert GetPageContent(web, u).links == [];
    }
  }

  /** `u` is reachable from `root` by following at most `n` links. */
  ghost predicate Within(g: LinkGraph, root: string, n: nat, u: string)
    decreases n
  {
    u == root || (n > 0 && exists p :: Within(g, root, n - 1, p) && u in Outlinks(g, p))
  }

  /** Reachability in fewer steps is reachability in more. */
  lemma {:induction false} WithinMonotone(g: LinkGraph, root: string, n: nat, m: nat, u: string)
    requires n <= m && Within(g, root, n, u)
    ensures Within(g, root, m, u)
    decreases n
  {
    if u != root {
      var p :| Within(g, root, n - 1, p) && u in Outlinks(g, p);
      WithinMonotone(g, root, n - 1, m - 1, p);
    }
  }

  /** Every URL a crawl over `g` can ever queue: the root and every link in the
      graph. It is finite, which bounds the crawl. */
  ghost function Universe(g: LinkGraph, root: string): (r: set<string>)
    ensures root in r
    ensures forall u, l :: l in Outlinks(g, u) ==> l in r
  {
    {root} + set p, l | p in g && l in g[p] :: l
  }

  /** The frontier entries for the links of a page fetched at depth `depth - 1`. */
  function Successors(links: seq<string>, depth: int): seq<(string, int)> {
    seq(|links|, i requires 0 <= i < |links| => (links[i], depth))
  }

  /** The end state of a crawl is closed: every link of a page fetched at depth
      d is itself fetched at depth at most d + 1, unless d + 1 reaches the bound. */
  ghost predicate Closed(g: LinkGraph, maxDepth: int, depthOf: map<string, int>) {
    forall u, l :: u in depthOf && l in Outlinks(g, u) ==>
      depthOf[u] + 1 >= maxDepth || (l in depthOf && depthOf[l] <= depthOf[u] + 1)
  }

  /** In a closed end state that contains the root at depth 0, every URL
      reachable within n < maxDepth links was fetched, at depth at most n. */
  lemma {:induction false} ClosedIsComplete(
    g: LinkGraph, root: string, maxDepth: int, depthOf: map<string, int>, n: nat, u: string)
    requires Closed(g, maxDepth, depthOf)
    requires root in depthOf && depthOf[root] == 0
    requires forall v :: v in depthOf ==> depthOf[v] >= 0
    requires n < maxDepth && Within(g, root, n, u)
    ensures u in depthOf && depthOf[u] <= n
    decreases n
  {
    if u != root {
      var p :| Within(g, root, n - 1, p) && u in Outlinks(g, p);
      ClosedIsComplete(g, root, maxDepth, depthOf, n - 1, p);
    }
  }

  /** The frontier: (url, depth) pairs in FIFO order. */
  type Frontier = seq<(string, int)>

  /** Bookkeeping of the visited map: its keys are exactly `urls`, listed once
      each in insertion order, each mapped to the fetch of that key, all drawn
      from the finite universe; the ghost `depthOf` records the depth at which
      each key was fetched. */
  ghost predicate VisitedInv(
    web: Web, universe: set<string>, visited: map<string, CrawletUrl>, urls: seq<string>,
    depthOf: map<string, int>)
  {
    && visited.Keys == depthOf.Keys <= universe
    && (forall u :: u in visited <==> u in urls)
    && Distinct(urls)
    && (forall u :: u in visited ==> visited[u] == GetPageContent(web, u))
  }

  /** The FIFO discipline: frontier depths never decrease from front to back,
      span at most one level, and no fetched depth exceeds a queued one. */
  ghost predicate FrontierInv(universe: set<string>, queue: Frontier, depthOf: map<string, int>) {
    && (forall k :: 0 <= k < |queue| ==> queue[k].0 in universe && queue[k].1 >= 0)
    && (forall j, k :: 0 <= j < k < |queue| ==> queue[j].1 <= queue[k].1)
    && (forall j, k :: 0 <= j < |queue| && 0 <= k < |queue| ==> queue[k].1 <= queue[j].1 + 1)
    && (forall u, k :: u in depthOf && 0 <= k < |queue| ==> depthOf[u] <= queue[k].1)
  }

  /** Soundness: a queued pair (u, d) has u within d links of the root, and a
      key fetched at depth d has d < maxDepth and is within d links. */
  ghost predicate SoundInv(
    g: LinkGraph, root: string, maxDepth: int, queue: Frontier, depthOf: map<string, int>)
  {
    && (forall k :: 0 <= k < |queue| ==> queue[k].1 >= 0 && Within(g, root, queue[k].1, queue[k].0))
    && (forall u :: u in depthOf ==> 0 <= depthOf[u] < maxDepth && Within(g, root, depthOf[u], u))
  }

  /** Progress towards `Closed`: each link of a key fetched at depth d is
      fetched at depth at most d + 1, or still queued at depth d + 1, or lies
      beyond the bound. */
  ghost predicate ClosureInv(g: LinkGraph, maxDepth: int, queue: Frontier, depthOf: map<string, int>) {
    forall u, l :: u in depthOf && l in Outlinks(g, u) ==>
      depthOf[u] + 1 >= maxDepth || (l in depthOf && depthOf[l] <= depthOf[u] + 1) || (l, depthOf[u] + 1) in queue
  }

  /** The root is fetched first, at depth 0, as soon as the bound allows it. */
  ghost predicate RootInv(root: string, maxDepth: int, queue: Frontier, urls: seq<string>, depthOf: map<string, int>) {
    && ((urls == [] && queue == [(root, 0)]) || (maxDepth >= 1 ==> root in depthOf && depthOf[root] == 0))
    && (|urls| > 0 ==> urls[0] == root)
  }

  /** Dropping the front of the frontier keeps the FIFO discipline. */
  lemma PopFrontier(universe: set<string>, queue: Frontier, depthOf: map<string, int>)
    requires FrontierInv(universe, queue, depthOf) && |queue| > 0
    ensures FrontierInv(universe, queue[1..], depthOf)
  {
  }

  /** Dropping the front of the frontier keeps soundness. */
  lemma PopSound(g: LinkGraph, root: string, maxDepth: int, queue: Frontier, depthOf: map<string, int>)
    requires SoundInv(g, root, maxDepth, queue, depthOf) && |queue| > 0
    ensures SoundInv(g, root, maxDepth, queue[1..], depthOf)
  {
  }

  /** Skipping the front pair keeps closure: the pair it drops is either
      beyond the bound or names a key fetched no deeper than the pair. */
  lemma SkipClosure(g: LinkGraph, maxDepth: int, queue: Frontier, depthOf: map<string, int>)
    requires ClosureInv(g, maxDepth, queue, depthOf)
    requires |queue| > 0 && (queue[0].0 in depthOf || queue[0].1 >= maxDepth)
    requires queue[0].0 in depthOf ==> depthOf[queue[0].0] <= queue[0].1
    ensures ClosureInv(g, maxDepth, queue[1..], depthOf)
  {
    var rest := queue[1..];
    forall u, l | u in depthOf && l in Outlinks(g, u)
      ensures depthOf[u] + 1 >= maxDepth || (l in depthOf && depthOf[l] <= depthOf[u] + 1) || (l, depthOf[u] + 1) in rest
    {
      if depthOf[u] + 1 < maxDepth && !(l in depthOf && depthOf[l] <= depthOf[u] + 1) {
        assert (l, depthOf[u] + 1) in queue;
        var k :| 0 <= k < |queue| && queue[k] == (l, depthOf[u] + 1);
        assert k != 0;
        assert rest[k - 1] == queue[k];
      }
    }
  }

  /** Skipping the front pair keeps the root fetched first: the very first
      pair is only skipped when the bound is below 1. */
  lemma SkipRoot(root: string, maxDepth: int, queue: Frontier, urls: seq<string>, depthOf: map<string, int>)
    requires RootInv(root, maxDepth, queue, urls, depthOf)
    requires forall u :: u in depthOf <==> u in urls
    requires |queue| > 0 && (queue[0].0 in depthOf || queue[0].1 >= maxDepth)
    ensures RootInv(root, maxDepth, queue[1..], urls, depthOf)
  {
  }

  /** Recording a fetched URL keeps the visited bookkeeping. */
  lemma FetchVisited(
    web: Web, universe: set<string>, visited: map<string, CrawletUrl>, urls: seq<string>,
    depthOf: map<string, int>, url: string, depth: int, page: CrawletUrl)
    requires VisitedInv(web, universe, visited, urls, depthOf)
    requires url in universe && url !in visited && page == GetPageContent(web, url)
    ensures VisitedInv(web, universe, visited[url := page], urls + [url], depthOf[url := depth])
  {
    var urls' := urls + [url];
    forall i, j | 0 <= i < j < |urls'| ensures urls'[i] != urls'[j] {
      if j == |urls| {
        assert urls'[i] == urls[i];
        assert urls[i] in visited;
      }
    }
  }

  /** Recording a new URL shrinks the set of URLs not yet fetched. */
  lemma FetchShrinks(universe: set<string>, keys: set<string>, url: string)
    requires url in universe && url !in keys
    ensures |universe - (keys + {url})| < |universe - keys|
  {
    assert (universe - keys) == (universe - (keys + {url})) + {url};
  }

  /** Fetching the front pair (url, d) and queueing its links at d + 1 keeps
      the FIFO discipline. */
  lemma FetchFrontier(
    universe: set<string>, queue: Frontier, depthOf: map<string, int>, links: seq<string>)
    requires FrontierInv(universe, queue, depthOf) && |queue| > 0
    requires forall l :: l in links ==> l in universe
    ensures FrontierInv(universe, queue[1..] + Successors(links, queue[0].1 + 1), depthOf[queue[0].0 := queue[0].1])
  {
    var d := queue[0].1;
    var q' := queue[1..] + Successors(links, d + 1);
    forall k | 0 <= k < |q'| ensures d <= q'[k].1 <= d + 1 {
      if k < |queue| - 1 {
        assert q'[k] == queue[k + 1];
      }
    }
    forall j, k | 0 <= j < k < |q'| ensures q'[j].1 <= q'[k].1 {
      if k < |queue| - 1 {
        assert q'[k] == queue[k + 1] && q'[j] == queue[j + 1];
      }
    }
    forall k | 0 <= k < |q'| ensures q'[k].0 in universe && q'[k].1 >= 0 {
      if k < |queue| - 1 {
        assert q'[k] == queue[k + 1];
      } else {
        assert q'[k].0 == links[k - (|queue| - 1)];
      }
    }
  }

  /** The links of a URL within d links of the root are within d + 1. */
  lemma FetchSound(
    g: LinkGraph, root: string, maxDepth: int, queue: Frontier, depthOf: map<string, int>)
    requires SoundInv(g, root, maxDepth, queue, depthOf)
    requires |queue| > 0 && queue[0].1 < maxDepth
    ensures SoundInv(g, root, maxDepth, queue[1..] + Successors(Outlinks(g, queue[0].0), queue[0].1 + 1),
      depthOf[queue[0].0 := queue[0].1])
  {
    var (url, d) := queue[0];
    var links := Outlinks(g, url);
    var q' := queue[1..] + Successors(links, d + 1);
    assert Within(g, root, d, url);
    forall k | 0 <= k < |q'| ensures q'[k].1 >= 0 && Within(g, root, q'[k].1, q'[k].0) {
      if k < |queue| - 1 {
        assert q'[k] == queue[k + 1];
      } else {
        assert q'[k] == (links[k - (|queue| - 1)], d + 1);
      }
    }
  }

  /** Fetching the front pair keeps closure: the new key's links are all
      queued, and any link waiting for this very pair is now fetched. */
  lemma FetchClosure(g: LinkGraph, maxDepth: int, queue: Frontier, depthOf: map<string, int>)
    requires ClosureInv(g, maxDepth, queue, depthOf)
    requires |queue| > 0 && queue[0].0 !in depthOf
    ensures ClosureInv(g, maxDepth, queue[1..] + Successors(Outlinks(g, queue[0].0), queue[0].1 + 1),
      depthOf[queue[0].0 := queue[0].1])
  {
    var (url, d) := queue[0];
    var links := Outlinks(g, url);
    var q' := queue[1..] + Successors(links, d + 1);
    var depthOf' := depthOf[url := d];
    forall u, l | u in depthOf' && l in Outlinks(g, u)
      ensures depthOf'[u] + 1 >= maxDepth || (l in depthOf' && depthOf'[l] <= depthOf'[u] + 1) || (l, depthOf'[u] + 1) in q'
    {
      if u == url {
        QueuedLink(queue[1..], links, d + 1, l);
      } else if (l, depthOf[u] + 1) in queue && (l, depthOf[u] + 1) != queue[0] {
        StillQueued(queue, Successors(links, d + 1), (l, depthOf[u] + 1));
      }
    }
  }

  /** Every link of a fetched page ends up in the frontier. */
  lemma QueuedLink(rest: Frontier, links: seq<string>, depth: int, l: string)
    requires l in links
    ensures (l, depth) in rest + Successors(links, depth)
  {
    var i :| 0 <= i < |links| && links[i] == l;
    assert (rest + Successors(links, depth))[|rest| + i] == (l, depth);
  }

  /** A pair behind the front of the frontier stays queued after the pop. */
  lemma StillQueued(queue: Frontier, extra: Frontier, x: (string, int))
    requires x in queue && x != queue[0]
    ensures x in queue[1..] + extra
  {
    var k :| 0 <= k < |queue| && queue[k] == x;
    assert (queue[1..] + extra)[k - 1] == x;
  }

  /** Fetching the front pair keeps the root fetched first. */
  lemma FetchRoot(root: string, maxDepth: int, queue: Frontier, urls: seq<string>, depthOf: map<string, int>,
    links: seq<string>)
    requires RootInv(root, maxDepth, queue, urls, depthOf)
    requires forall u :: u in depthOf <==> u in urls
    requires |queue| > 0 && queue[0].0 !in depthOf && 0 <= queue[0].1 < maxDepth
    ensures RootInv(root, maxDepth, queue[1..] + Successors(links, queue[0].1 + 1), urls + [queue[0].0],
      depthOf[queue[0].0 := queue[0].1])
  {
  }

  /** All loop invariants of the crawl at once. */
  ghost predicate CrawlInv(
    web: Web, g: LinkGraph, universe: set<string>, root: string, maxDepth: int,
    queue: Frontier, visited: map<string, CrawletUrl>, urls: seq<string>, depthOf: map<string, int>)
  {
    && VisitedInv(web, universe, visited, urls, depthOf)
    && FrontierInv(universe, queue, depthOf)
    && SoundInv(g, root, maxDepth, queue, depthOf)
    && ClosureInv(g, maxDepth, queue, depthOf)
    && RootInv(root, maxDepth, queue, urls, depthOf)
  }

  /** Skipping the front pair keeps all loop invariants. */
  lemma SkipStep(
    web: Web, g: LinkGraph, universe: set<string>, root: string, maxDepth: int,
    queue: Frontier, visited: map<string, CrawletUrl>, urls: seq<string>, depthOf: map<string, int>)
    requires CrawlInv(web, g, universe, root, maxDepth, queue, visited, urls, depthOf)
    requires |queue| > 0 && (queue[0].0 in visited || queue[0].1 >= maxDepth)
    ensures CrawlInv(web, g, universe, root, maxDepth, queue[1..], visited, urls, depthOf)
  {
    PopFrontier(universe, queue, depthOf);
    PopSound(g, root, maxDepth, queue, depthOf);
    SkipClosure(g, maxDepth, queue, depthOf);
    SkipRoot(root, maxDepth, queue, urls, depthOf);
  }

  /** Fetching the front pair keeps all loop invariants and adds a new key. */
  lemma FetchStep(
    web: Web, g: LinkGraph, universe: set<string>, root: string, maxDepth: int,
    queue: Frontier, visited: map<string, CrawletUrl>, urls: seq<string>, depthOf: map<string, int>,
    page: CrawletUrl)
    requires g == LinkGraphOf(web) && universe == Universe(g, root)
    requires CrawlInv(web, g, universe, root, maxDepth, queue, visited, urls, depthOf)
    requires |queue| > 0 && queue[0].0 !in visited && queue[0].1 < maxDepth
    requires page == GetPageContent(web, queue[0].0)
    ensures CrawlInv(web, g, universe, root, maxDepth,
      queue[1..] + Successors(page.links, queue[0].1 + 1), visited[queue[0].0 := page],
      urls + [queue[0].0], depthOf[queue[0].0 := queue[0].1])
    ensures |universe - visited[queue[0].0 := page].Keys| < |universe - visited.Keys|
  {
    var (url, depth) := queue[0];
    OutlinksOf(web, url);
    assert page.links == Outlinks(g, url);
    FetchVisited(web, universe, visited, urls, depthOf, url, depth, page);
    FetchShrinks(universe, visited.Keys, url);
    FetchFrontier(universe, queue, depthOf, page.links);
    FetchSound(g, root, maxDepth, queue, depthOf);
    FetchClosure(g, maxDepth, queue, depthOf);
    FetchRoot(root, maxDepth, queue, urls, depthOf, page.links);
  }

  /** One iteration of the crawl loop: pop the front pair; skip it when its URL
      is already a key or its depth has reached the bound; otherwise fetch it,
      store the record under the URL and queue its links one level deeper.
      Either a new key is added, or nothing but the frontier's length shrinks. */
  method Visit(
    web: Web, ghost g: LinkGraph, ghost universe: set<string>, rootUrl: string, maxDepth: int,
    queue: Frontier, visited: map<string, CrawletUrl>, urls: seq<string>, ghost depthOf: map<string, int>)
    returns (queue': Frontier, visited': map<string, CrawletUrl>, urls': seq<string>, ghost depthOf': map<string, int>)
    requires g == LinkGraphOf(web) && universe == Universe(g, rootUrl)
    requires CrawlInv(web, g, universe, rootUrl, maxDepth, queue, visited, urls, depthOf)
    requires |queue| > 0
    ensures CrawlInv(web, g, universe, rootUrl, maxDepth, queue', visited', urls', depthOf')
    ensures queue[0].0 in visited || queue[0].1 >= maxDepth ==>
      queue' == queue[1..] && visited' == visited && urls' == urls
    ensures !(queue[0].0 in visited || queue[0].1 >= maxDepth) ==>
      && visited' == visited[queue[0].0 := GetPageContent(web, queue[0].0)]
      && urls' == urls + [queue[0].0]
      && queue' == queue[1..] + Successors(GetPageContent(web, queue[0].0).links, queue[0].1 + 1)
      && |universe - visited'.Keys| < |universe - visited.Keys|
  {
    var (url, depth) := queue[0];
    if url in visited || depth >= maxDepth {
      SkipStep(web, g, universe, rootUrl, maxDepth, queue, visited, urls, depthOf);
      queue', visited', urls', depthOf' := queue[1..], visited, urls, depthOf;
    } else {
      var page := GetPageContent(web, url);
      FetchStep(web, g, universe, rootUrl, maxDepth, queue, visited, urls, depthOf, page);
      queue' := queue[1..] + Successors(page.links, depth + 1);
      visited' := visited[url := page];
      urls' := urls + [url];
      depthOf' := depthOf[url := depth];
    }
  }

  /** `crawl_url(root_url, max_depth)` over the network `web`. Returns the
      visited map's values (`records`) and its keys (`urls`) in insertion order.
      Each queued URL is fetched at most once; the keys are exactly the URLs
      reachable from the root in fewer than `max_depth` link steps, so the root
      is fetched iff `max_depth >= 1`; each record is the fetch of its key. */
  method CrawlUrl(web: Web, rootUrl: string, maxDepth: int)
    returns (records: seq<CrawletUrl>, urls: seq<string>)
    ensures |records| == |urls|
    ensures Distinct(urls)
    ensures forall i :: 0 <= i < |urls| ==> records[i] == GetPageContent(web, urls[i])
    ensures forall u :: u in urls <==> maxDepth >= 1 && Within(LinkGraphOf(web), rootUrl, maxDepth - 1, u)
    ensures |urls| > 0 <==> maxDepth >= 1
    ensures |urls| > 0 ==> urls[0] == rootUrl
  {
    ghost var g := LinkGraphOf(web);
    ghost var universe := Universe(g, rootUrl);
    CrawlStart(web, g, universe, rootUrl, maxDepth);
    var visited;
    ghost var depthOf;
    visited, urls, depthOf := Drain(web, g, universe, rootUrl, maxDepth, [(rootUrl, 0)], map[], [], map[]);
    CrawlDone(web, g, universe, rootUrl, maxDepth, visited, urls, depthOf);
    records := ValuesInOrder(visited, urls);
  }

  /** The visited map's values, listed in the order of its keys `urls`. */
  function ValuesInOrder(visited: map<string, CrawletUrl>, urls: seq<string>): seq<CrawletUrl>
    requires forall u :: u in urls ==> u in visited
  {
    seq(|urls|, i requires 0 <= i < |urls| => visited[urls[i]])
  }

  /** The crawl loop: visit the front of the frontier until it is empty. */
  method Drain(
    web: Web, ghost g: LinkGraph, ghost universe: set<string>, rootUrl: string, maxDepth: int,
    queue0: Frontier, visited0: map<string, CrawletUrl>, urls0: seq<string>, ghost depthOf0: map<string, int>)
    returns (visited: map<string, CrawletUrl>, urls: seq<string>, ghost depthOf: map<string, int>)
    requires g == LinkGraphOf(web) && universe == Universe(g, rootUrl)
    requires CrawlInv(web, g, universe, rootUrl, maxDepth, queue0, visited0, urls0, depthOf0)
    ensures CrawlInv(web, g, universe, rootUrl, maxDepth, [], visited, urls, depthOf)
    ensures forall u :: u in visited <==> u in urls
    ensures forall u :: u in visited ==> visited[u] == GetPageContent(web, u)
  {
    var queue := queue0;
    visited, urls, depthOf := visited0, urls0, depthOf0;
    while |queue| > 0
      invariant CrawlInv(web, g, universe, rootUrl, maxDepth, queue, visited, urls, depthOf)
      decreases |universe - visited.Keys|, |queue|
    {
      queue, visited, urls, depthOf := Visit(web, g, universe, rootUrl, maxDepth, queue, visited, urls, depthOf);
    }
  }

  /** What the invariants give once the frontier is empty. */
  lemma CrawlDone(
    web: Web, g: LinkGraph, universe: set<string>, root: string, maxDepth: int,
    visited: map<string, CrawletUrl>, urls: seq<string>, depthOf: map<string, int>)
    requires CrawlInv(web, g, universe, root, maxDepth, [], visited, urls, depthOf)
    ensures forall u :: u in urls ==> u in visited && visited[u] == GetPageContent(web, u)
    ensures Distinct(urls)
    ensures forall u :: u in urls <==> maxDepth >= 1 && Within(g, root, maxDepth - 1, u)
    ensures |urls| > 0 <==> maxDepth >= 1
    ensures |urls| > 0 ==> urls[0] == root
  {
    CrawlEnd(g, root, maxDepth, urls, depthOf);
  }

  /** The invariants hold of the initial state: root queued at depth 0, nothing visited. */
  lemma CrawlStart(web: Web, g: LinkGraph, universe: set<string>, root: string, maxDepth: int)
    requires universe == Universe(g, root)
    ensures VisitedInv(web, universe, map[], [], map[])
    ensures FrontierInv(universe, [(root, 0)], map[])
    ensures SoundInv(g, root, maxDepth, [(root, 0)], map[])
    ensures ClosureInv(g, maxDepth, [(root, 0)], map[])
    ensures RootInv(root, maxDepth, [(root, 0)], [], map[])
  {
    assert Within(g, root, 0, root);
  }

  /** With the frontier empty, the fetched keys are exactly the URLs within
      maxDepth - 1 links of the root. */
  lemma CrawlEnd(g: LinkGraph, root: string, maxDepth: int, urls: seq<string>, depthOf: map<string, int>)
    requires forall u :: u in depthOf <==> u in urls
    requires SoundInv(g, root, maxDepth, [], depthOf)
    requires ClosureInv(g, maxDepth, [], depthOf)
    requires RootInv(root, maxDepth, [], urls, depthOf)
    ensures forall u :: u in urls <==> maxDepth >= 1 && Within(g, root, maxDepth - 1, u)
    ensures |urls| > 0 <==> maxDepth >= 1
  {
    assert Closed(g, maxDepth, depthOf);
    if |urls| > 0 {
      assert urls[0] in depthOf;
    }
    if maxDepth >= 1 {
      assert root in depthOf;
      forall u | Within(g, root, maxDepth - 1, u) ensures u in urls {
        ClosedIsComplete(g, root, maxDepth, depthOf, maxDepth - 1, u);
      }
    }
    forall u | u in urls ensures maxDepth >= 1 && Within(g, root, maxDepth - 1, u) {
      WithinMonotone(g, root, depthOf[u], maxDepth - 1, u);
    }
  }

  /** Worked example: root A links to B and C, B links to D. With max_depth 2
      the crawl fetches exactly A, B and C: D is only discovered at depth 2. */
  lemma DepthBoundExample(g: LinkGraph)
    requires g == map["A" := ["B", "C"], "B" := ["D"]]
    ensures forall u :: Within(g, "A", 1, u) <==> u == "A" || u == "B" || u == "C"
    ensures Within(g, "A", 2, "D")
  {
    forall u | Within(g, "A", 1, u) ensures u == "A" || u == "B" || u == "C" {
      if u != "A" {
        var p :| Within(g, "A", 0, p) && u in Outlinks(g, p);
        assert p == "A";
      }
    }
    assert "B" in Outlinks(g, "A") && "C" in Outlinks(g, "A");
    assert Within(g, "A", 0, "A");
    assert Within(g, "A", 1, "B") && Within(g, "A", 1, "C");
    assert "D" in Outlinks(g, "B");
  }
}

=== FILE: crawler.dfy ===
/** Page-level logic of backend/crawler/crawler.py: resolving an anchor's href
    against the page URL, turning an HTTP response into a page record, and the
    fetch with its transport-error sentinel. HTTP (httpx) and HTML parsing
    (BeautifulSoup) are replaced by plain inputs: a `Response` carries what the
    parser would have extracted, and the network is a finite map `Web`. */
module Crawler {
  import opened Wrappers
  import opened Models
  import opened Urls

  /** `link_normalizer(base_url, url)`: an href that starts with the literal
      "http" is kept; one starting with '/' is put after `scheme://netloc` of
      the base; any other is put after `scheme://netloc/`, preceded by the
      base's path (which keeps its leading '/') and a '/' when that path is not
      empty. */
  function LinkNormalizer(baseUrl: string, url: string): (r: string)
    ensures EndsWith(r, url)
    ensures StartsWith(url, "http") ==> r == url
    ensures !StartsWith(url, "http") ==> StartsWith(r, Origin(UrlParse(baseUrl)))
  {
    if StartsWith(url, "http") then url else Resolve(UrlParse(baseUrl), url)
  }

  /** `scheme://netloc` of a parsed base URL. */
  function Origin(parsed: ParsedUrl): string {
    parsed.scheme + "://" + parsed.netloc
  }

  /** The three relative cases, given the parsed base. */
  function Resolve(parsed: ParsedUrl, url: string): (r: string)
    ensures StartsWith(r, Origin(parsed)) && EndsWith(r, url)
  {
    var origin := Origin(parsed);
    var r :=
      if StartsWith(url, "/") then origin + url
      else if parsed.path != "" then origin + "/" + parsed.path + "/" + url
      else origin + "/" + url;
    assert r[..|origin|] == origin;
    assert r[|r| - |url|..] == url;
    r
  }

  /** An href beginning with '/' is appended to the origin of a simple base URL. */
  lemma NormalizeRooted(scheme: string, netloc: string, path: string, href: string)
    requires SimpleUrlParts(scheme, netloc, path)
    requires StartsWith(href, "/")
    ensures LinkNormalizer(Join(scheme, netloc, path), href) == scheme + "://" + netloc + href
  {
    var base := Join(scheme, netloc, path);
    UrlParseJoin(scheme, netloc, path);
    NotHttp(href);
    assert LinkNormalizer(base, href) == Resolve(ParsedUrl(scheme, netloc, path, "", "", ""), href);
  }

  /** An href that starts with '/' does not start with "http". */
  lemma NotHttp(href: string)
    requires StartsWith(href, "/")
    ensures !StartsWith(href, "http")
  {
    assert href[0] == '/';
  }

  /** Any other relative href: after `scheme://netloc/` directly when the base
      has no path, otherwise after the base path and a further '/' (so a path
      of "/x" yields a double slash). */
  lemma NormalizeRelative(scheme: string, netloc: string, path: string, href: string)
    requires SimpleUrlParts(scheme, netloc, path)
    requires !StartsWith(href, "http") && !StartsWith(href, "/")
    ensures path == "" ==> LinkNormalizer(Join(scheme, netloc, path), href) == scheme + "://" + netloc + "/" + href
    ensures path != "" ==> LinkNormalizer(Join(scheme, netloc, path), href) == scheme + "://" + netloc + "/" + path + "/" + href
  {
    UrlParseJoin(scheme, netloc, path);
  }

  /** Normalizing against a base whose scheme starts with "http" gives a link
      that normalizing again leaves unchanged. */
  lemma NormalizeIdempotent(baseUrl: string, href: string)
    requires StartsWith(UrlParse(baseUrl).scheme, "http")
    ensures LinkNormalizer(baseUrl, LinkNormalizer(baseUrl, href)) == LinkNormalizer(baseUrl, href)
  {
    if !StartsWith(href, "http") {
      ResolveKeepsHttp(UrlParse(baseUrl), href);
    }
  }

  /** A link resolved against a base whose scheme starts with "http" starts
      with "http" too. */
  lemma ResolveKeepsHttp(parsed: ParsedUrl, href: string)
    requires StartsWith(parsed.scheme, "http")
    ensures StartsWith(Resolve(parsed, href), "http")
  {
    var r := Resolve(parsed, href);
    var origin := Origin(parsed);
    assert r[..|origin|] == origin;
    assert origin[..4] == parsed.scheme[..4];
    assert r[..4] == origin[..4];
  }

  /** Worked example: "http://a.com/x" parses into scheme "http", netloc
      "a.com" and path "/x". */
  lemma UrlParseExample(url: string)
    requires url == "http://a.com/x"
    ensures UrlParse(url) == ParsedUrl("http", "a.com", "/x", "", "", "")
  {
    assert url == Join("http", "a.com", "/x");
    UrlParseJoin("http", "a.com", "/x");
  }

  /** Worked example: "http://a.com" has an empty path. */
  lemma UrlParseNoPathExample(url: string)
    requires url == "http://a.com"
    ensures UrlParse(url) == ParsedUrl("http", "a.com", "", "", "", "")
  {
    assert url == Join("http", "a.com", "");
    UrlParseJoin("http", "a.com", "");
  }

  /** Worked examples on those parsed bases: a rooted href replaces the path,
      a relative one on the path-less base gets one '/', and a relative one on
      the base with path "/x" gets a double slash. */
  lemma ResolveExamples(withPath: ParsedUrl, withoutPath: ParsedUrl)
    requires withPath == ParsedUrl("http", "a.com", "/x", "", "", "")
    requires withoutPath == ParsedUrl("http", "a.com", "", "", "", "")
    ensures Resolve(withPath, "/y") == "http://a.com/y"
    ensures Resolve(withoutPath, "y") == "http://a.com/y"
    ensures Resolve(withPath, "y") == "http://a.com//x/y"
  {
    assert !StartsWith("y", "/") by { assert "y"[0] == 'y'; }
  }

  /** Worked example: an absolute href is kept as it is. */
  lemma NormalizeAbsoluteExample(base: string, href: string)
    requires base == "http://a.com/x" && href == "http://b.com"
    ensures LinkNormalizer(base, href) == "http://b.com"
  {
    assert StartsWith(href, "http");
  }

  /** What the HTML parser yields for a response, plus the response itself:
      the URL (`str(response.url)`, the requested URL as the HTTP client
      normalizes it; redirects are not followed, so a 3xx answer is recorded
      as it is, but the URL need not equal the queued key), status,
      Content-Type header (absent reads as "unknown"), body text, the
      `<title>` text if the document has a title element, and the `href`
      attribute of every `<a>` element in document order (absent when the
      anchor has none). */
  datatype Response = Response(
    url: string,
    statusCode: int,
    contentType: Option<string>,
    text: string,
    title: Option<string>,
    anchors: seq<Option<string>>)

  /** `link.get("href")` is truthy: present and not empty. */
  predicate IsLinkHref(a: Option<string>) {
    a.Some? && a.value != ""
  }

  /** The hrefs the record builder follows: present, non-empty, in document order. */
  function Hrefs(anchors: seq<Option<string>>): (r: seq<string>)
    ensures |r| <= |anchors|
    ensures forall h :: h in r <==> Some(h) in anchors && h != ""
  {
    if |anchors| == 0 then []
    else
      var rest := Hrefs(anchors[1..]);
      assert forall a :: a in anchors <==> a == anchors[0] || a in anchors[1..];
      if IsLinkHref(anchors[0]) then [anchors[0].value] + rest else rest
  }

  /** The followed hrefs of consecutive stretches of a document are those of
      the first stretch followed by those of the second: document order is
      kept and duplicates are not merged. */
  lemma {:induction false} HrefsAppend(a: seq<Option<string>>, b: seq<Option<string>>)
    ensures Hrefs(a + b) == Hrefs(a) + Hrefs(b)
    decreases |a|
  {
    if |a| == 0 {
      assert a + b == b;
    } else {
      assert (a + b)[0] == a[0];
      assert (a + b)[1..] == a[1..] + b;
      HrefsAppend(a[1..], b);
    }
  }

  /** One anchor contributes its href iff the href is present and non-empty. */
  lemma HrefsSingle(x: Option<string>)
    ensures Hrefs([x]) == if IsLinkHref(x) then [x.value] else []
  {
    assert [x][1..] == [];
  }

  /** Resolving each followed href against the page URL, in order. */
  function NormalizeLinks(pageUrl: string, anchors: seq<Option<string>>): (r: seq<string>)
    ensures |r| == |Hrefs(anchors)|
    ensures forall i :: 0 <= i < |r| ==> r[i] == LinkNormalizer(pageUrl, Hrefs(anchors)[i])
  {
    if |anchors| == 0 then []
    else
      var rest := NormalizeLinks(pageUrl, anchors[1..]);
      if IsLinkHref(anchors[0]) then [LinkNormalizer(pageUrl, anchors[0].value)] + rest else rest
  }

  /** `get_url_instance_from_response`: the record keeps the response URL and
      status; only a 200 response whose Content-Type starts with "text/html"
      gets a title ("" when the document has none), a size (the length of the
      text) and its links, each resolved against the record's own URL. */
  function GetUrlInstanceFromResponse(resp: Response): (r: CrawletUrl)
    ensures r.url == resp.url && r.statusCode == Some(resp.statusCode)
    ensures r.id.None? && r.taskId.None?
    ensures WellFormedRecord(r)
    ensures r.contentSize.Some? <==>
      resp.statusCode == 200 && StartsWith(resp.contentType.GetOr("unknown"), "text/html")
    ensures r.contentSize.Some? ==>
      && r.contentSize.value == |resp.text|
      && (resp.title.Some? ==> r.contentTitle == resp.title)
      && (resp.title.None? ==> r.contentTitle == Some(""))
      && |r.links| == |Hrefs(resp.anchors)|
      && (forall i :: 0 <= i < |r.links| ==> r.links[i] == LinkNormalizer(r.url, Hrefs(resp.anchors)[i]))
  {
    var base := NewCrawletUrl(resp.url, Some(resp.statusCode));
    if resp.statusCode != 200 then base
    else if !StartsWith(resp.contentType.GetOr("unknown"), "text/html") then base
    else
      base.(contentTitle := Some(resp.title.GetOr("")),
            contentSize := Some(|resp.text|),
            links := NormalizeLinks(base.url, resp.anchors))
  }

  /** What one GET of a URL produces: a response, or an `httpx.HTTPError`. */
  datatype FetchOutcome = Responded(response: Response) | HttpError

  /** The network as a finite oracle; a URL it does not list fails at transport level. */
  type Web = map<string, FetchOutcome>

  /** The status the crawler records for any transport failure. */
  const TransportErrorStatus: int := 404

  /** `get_page_content(url)`: the record built from the response, or on a
      transport error a record with the requested URL, status 404 and nothing
      else. It never fails. */
  function GetPageContent(web: Web, url: string): (r: CrawletUrl)
    ensures WellFormedRecord(r) && r.id.None? && r.taskId.None?
    ensures (url in web && web[url].Responded?) ==>
      r == GetUrlInstanceFromResponse(web[url].response)
    ensures !(url in web && web[url].Responded?) ==>
      r.url == url && r.statusCode == Some(TransportErrorStatus) && r.links == []
      && r.contentSize.None? && r.contentTitle.None?
  {
    if url in web && web[url].Responded? then GetUrlInstanceFromResponse(web[url].response)
    else NewCrawletUrl(url, Some(TransportErrorStatus))
  }

  /** Links only come from a URL the network answers with an HTML page. */
  lemma LinksNeedResponse(web: Web, url: string)
    requires GetPageContent(web, url).links != []
    ensures url in web && web[url].Responded?
    ensures web[url].response.statusCode == 200
  {
  }
}

=== FILE: lifecycle.dfy ===
/** The task life cycle that `worker` drives: a worker claims a task with
    `get_to_run` and, once `execute_task` has run, stores it as COMPLETED.
    Workers interleave one atomic repository call at a time. */
module Lifecycle {
  import opened Wrappers
  import opened Models
  import opened Repositories
  import opened Worker
  import opened Seqs

  /** Position of a state along a task's life. */
  function Rank(s: TaskState): nat {
    match s
    case Pending => 0
    case Running => 1
    case Completed => 2
  }

  /** The changes one step may make to a stored task's state: none,
      PENDING to RUNNING, or RUNNING to COMPLETED. */
  predicate Allowed(a: TaskState, b: TaskState) {
    a == b || (a == Pending && b == Running) || (a == Running && b == Completed)
  }

  /** A worker either claims a task (`get_to_run`) or finishes the one it
      holds (the `update` at the end of `execute_task`). */
  datatype Event = ClaimTask(worker: nat) | FinishTask(worker: nat)

  /** The task table and the task each busy worker holds. */
  datatype System = System(tasks: TaskTable, held: map<nat, Task>)

  /** One event. A worker holding a task does not claim another, and a
      worker holding nothing has nothing to finish. */
  function Step(s: System, e: Event): System {
    match e
    case ClaimTask(w) =>
      if w in s.held then s
      else
        var c := GetToRun(s.tasks);
        if c.task.None? then s else System(c.tasks, s.held[w := c.task.value])
    case FinishTask(w) =>
      if w !in s.held then s
      else
        match CompleteTask(s.tasks, s.held[w])
        case Ok(tasks) => System(tasks, s.held - {w})
        case Err(_) => System(s.tasks, s.held - {w})
  }

  function Run(s: System, trace: seq<Event>): System
    decreases |trace|
  {
    if |trace| == 0 then s else Run(Step(s, trace[0]), trace[1..])
  }

  /** The id handed out by an event, if it is a claim that found a task. */
  function ClaimedBy(s: System, e: Event): seq<Option<int>> {
    if e.ClaimTask? && e.worker !in s.held && GetToRun(s.tasks).task.Some? then
      [GetToRun(s.tasks).task.value.id]
    else []
  }

  /** The ids handed out along a trace, in order. */
  function Claims(s: System, trace: seq<Event>): seq<Option<int>>
    decreases |trace|
  {
    if |trace| == 0 then [] else ClaimedBy(s, trace[0]) + Claims(Step(s, trace[0]), trace[1..])
  }

  /** The stored row with the id of a held task is RUNNING. */
  predicate RunningIn(tasks: TaskTable, t: Task) {
    t.id.Some? && exists i :: 0 <= i < |tasks| && tasks[i].id == t.id && tasks[i].state == Running
  }

  /** The invariant of the system: keys are unique, every held task is stored
      as RUNNING, and no two workers hold the same task. */
  ghost predicate Inv(s: System) {
    && TasksKeyed(s.tasks)
    && (forall w :: w in s.held ==> RunningIn(s.tasks, s.held[w]))
    && (forall w1, w2 :: w1 in s.held && w2 in s.held && w1 != w2 ==> s.held[w1].id != s.held[w2].id)
  }

  /** Row by row, `b` is `a` with each state moved forward or kept. */
  ghost predicate Progressed(a: TaskTable, b: TaskTable, step: bool) {
    && |a| == |b|
    && forall i :: 0 <= i < |a| ==>
      && b[i] == a[i].(state := b[i].state)
      && Rank(a[i].state) <= Rank(b[i].state)
      && (step ==> Allowed(a[i].state, b[i].state))
  }

  /** Every row of `b` that differs from `a` is the row at `i`. */
  ghost predicate OnlyRowChanged(a: TaskTable, b: TaskTable, i: nat) {
    |a| == |b| && forall j :: 0 <= j < |a| && j != i ==> b[j] == a[j]
  }

  /** Only the row at `i` changed, from PENDING to RUNNING, and worker `w`
      now holds it. */
  ghost predicate ClaimMoved(s: System, s': System, w: nat, i: nat)
    requires i < |s.tasks|
  {
    && OnlyRowChanged(s.tasks, s'.tasks, i)
    && s.tasks[i].state == Pending
    && s'.tasks[i] == s.tasks[i].(state := Running)
    && s'.held == s.held[w := s'.tasks[i]]
  }

  /** A claim by an idle worker keeps the invariant and changes at most one
      stored task, from PENDING to RUNNING; the worker then holds that task. */
  lemma ClaimStep(s: System, w: nat)
    requires Inv(s) && w !in s.held
    ensures Inv(Step(s, ClaimTask(w)))
    ensures Progressed(s.tasks, Step(s, ClaimTask(w)).tasks, true)
    ensures Step(s, ClaimTask(w)) == s ||
      exists i :: 0 <= i < |s.tasks| && ClaimMoved(s, Step(s, ClaimTask(w)), w, i)
    ensures Step(s, ClaimTask(w)) == s <==> GetToRun(s.tasks).task.None?
  {
    var c := GetToRun(s.tasks);
    if c.task.Some? {
      var i := ClaimRow(s, w);
      var s' := Step(s, ClaimTask(w));
      forall v | v in s'.held ensures RunningIn(s'.tasks, s'.held[v]) {
        if v != w {
          var j :| 0 <= j < |s.tasks| && s.tasks[j].id == s.held[v].id && s.tasks[j].state == Running;
          assert j != i;
        }
      }
      forall v | v in s.held ensures s.held[v].id != c.task.value.id {
        var j :| 0 <= j < |s.tasks| && s.tasks[j].id == s.held[v].id && s.tasks[j].state == Running;
        assert j != i;
      }
    }
  }

  /** The row a successful claim changes. */
  lemma ClaimRow(s: System, w: nat) returns (i: nat)
    requires Inv(s) && w !in s.held && GetToRun(s.tasks).task.Some?
    ensures i < |s.tasks| && ClaimedAt(s.tasks, GetToRun(s.tasks), i)
    ensures ClaimMoved(s, Step(s, ClaimTask(w)), w, i)
    ensures TasksKeyed(Step(s, ClaimTask(w)).tasks)
  {
    var c := GetToRun(s.tasks);
    i :| 0 <= i < |s.tasks| && ClaimedAt(s.tasks, c, i);
    GetToRunKeepsKeys(s.tasks);
  }

  /** Finishing keeps the invariant: the row with the held task's id goes
      from RUNNING to COMPLETED, every other row is unchanged, and the worker
      is idle again. */
  lemma FinishStep(s: System, w: nat)
    requires Inv(s) && w in s.held
    ensures Inv(Step(s, FinishTask(w)))
    ensures Progressed(s.tasks, Step(s, FinishTask(w)).tasks, true)
    ensures forall i :: 0 <= i < |s.tasks| && s.tasks[i].id != s.held[w].id ==>
      Step(s, FinishTask(w)).tasks[i] == s.tasks[i]
    ensures forall i :: 0 <= i < |s.tasks| && s.tasks[i].id == s.held[w].id ==>
      s.tasks[i].state == Running && Step(s, FinishTask(w)).tasks[i] == s.tasks[i].(state := Completed)
    ensures Step(s, FinishTask(w)).held == s.held - {w}
  {
    var i := FinishRow(s, w);
    var s' := Step(s, FinishTask(w));
    forall v | v in s'.held ensures RunningIn(s'.tasks, s'.held[v]) {
      var j :| 0 <= j < |s.tasks| && s.tasks[j].id == s.held[v].id && s.tasks[j].state == Running;
      assert j != i;
    }
  }

  /** The row a finish changes: the one stored RUNNING with the held task's id. */
  lemma FinishRow(s: System, w: nat) returns (i: nat)
    requires Inv(s) && w in s.held
    ensures i < |s.tasks| && s.tasks[i].id == s.held[w].id && s.tasks[i].state == Running
    ensures CompleteTask(s.tasks, s.held[w]).Ok?
    ensures CompletedAt(s.tasks, s.held[w].id, Step(s, FinishTask(w)).tasks, i)
  {
    var t := s.held[w];
    var r := CompleteTask(s.tasks, t);
    var k :| 0 <= k < |s.tasks| && s.tasks[k].id == t.id && s.tasks[k].state == Running;
    i :| 0 <= i < |s.tasks| && CompletedAt(s.tasks, t.id, r.value, i);
    assert i == k;
  }

  /** One step keeps the invariant and moves every stored task at most one
      state forward, along PENDING, RUNNING, COMPLETED. */
  lemma StepPreservesInv(s: System, e: Event)
    requires Inv(s)
    ensures Inv(Step(s, e))
    ensures Progressed(s.tasks, Step(s, e).tasks, true)
  {
    match e
    case ClaimTask(w) =>
      if w !in s.held { ClaimStep(s, w); }
    case FinishTask(w) =>
      if w in s.held { FinishStep(s, w); }
  }

  /** Along any trace the invariant holds and no task's state moves back:
      in particular a task that has left PENDING never returns to it. */
  lemma {:induction false} RunNeverRegresses(s: System, trace: seq<Event>)
    requires Inv(s)
    ensures Inv(Run(s, trace))
    ensures Progressed(s.tasks, Run(s, trace).tasks, false)
    decreases |trace|
  {
    if |trace| > 0 {
      StepPreservesInv(s, trace[0]);
      RunNeverRegresses(Step(s, trace[0]), trace[1..]);
    }
  }

  /** Every id handed out along a trace belonged to a task that was PENDING at
      the start, and no id is handed out twice. */
  lemma {:induction false} ClaimsDistinct(s: System, trace: seq<Event>)
    requires Inv(s)
    ensures forall x :: x in Claims(s, trace) ==> PendingIn(s.tasks, x)
    ensures Distinct(Claims(s, trace))
    decreases |trace|
  {
    if |trace| > 0 {
      var e := trace[0];
      var s' := Step(s, e);
      StepPreservesInv(s, e);
      ClaimsDistinct(s', trace[1..]);
      var rest := Claims(s', trace[1..]);
      forall y | y in rest ensures PendingIn(s.tasks, y) {
        PendingBefore(s.tasks, s'.tasks, y);
      }
      if ClaimedBy(s, e) != [] {
        ClaimLeavesPending(s, e.worker, rest);
        DistinctCons(ClaimedBy(s, e)[0], rest);
        assert ClaimedBy(s, e) + rest == [ClaimedBy(s, e)[0]] + rest;
      }
    }
  }

  /** A claimed task is no longer PENDING, so a later claim cannot hand out its id. */
  lemma ClaimLeavesPending(s: System, w: nat, later: seq<Option<int>>)
    requires Inv(s) && ClaimedBy(s, ClaimTask(w)) != []
    requires forall y :: y in later ==> PendingIn(Step(s, ClaimTask(w)).tasks, y)
    ensures PendingIn(s.tasks, ClaimedBy(s, ClaimTask(w))[0])
    ensures ClaimedBy(s, ClaimTask(w))[0] !in later
  {
    var c := GetToRun(s.tasks);
    var i :| 0 <= i < |s.tasks| && ClaimedAt(s.tasks, c, i);
    var tasks' := Step(s, ClaimTask(w)).tasks;
    assert tasks' == c.tasks;
    GetToRunKeepsKeys(s.tasks);
    forall y | y in later ensures y != c.task.value.id {
      var j :| 0 <= j < |tasks'| && tasks'[j].id == y && tasks'[j].state == Pending;
      assert j != i;
    }
  }

  /** A task PENDING after some progress was PENDING before it. */
  lemma PendingBefore(a: TaskTable, b: TaskTable, y: Option<int>)
    requires Progressed(a, b, false) && PendingIn(b, y)
    ensures PendingIn(a, y)
  {
    var j :| 0 <= j < |b| && b[j].id == y && b[j].state == Pending;
    assert b[j] == a[j].(state := b[j].state);
  }

  /** Some stored row with id `x` is PENDING. */
  predicate PendingIn(tasks: TaskTable, x: Option<int>) {
    exists i :: 0 <= i < |tasks| && tasks[i].id == x && tasks[i].state == Pending
  }
}

=== FILE: models.dfy ===
/** The records of the crawler's storage layer (backend/storage/models.py):
    the task lifecycle state, a crawl task and the record of one crawled URL. */
module Models {
  import opened Wrappers

  /** Lifecycle of a crawl task; a string enum with exactly three members. */
  datatype TaskState = Pending | Running | Completed

  /** The string value each member carries ("pending", "running", "completed"). */
  function StateValue(s: TaskState): string {
    match s
    case Pending => "pending"
    case Running => "running"
    case Completed => "completed"
  }

  /** Looking a state up by its string value, as the enum constructor does when
      a request body is read; an unknown value is rejected. */
  function ParseState(v: string): (r: Option<TaskState>)
    ensures r.Some? ==> StateValue(r.value) == v
    ensures r.None? ==> forall s: TaskState :: StateValue(s) != v
  {
    if v == "pending" then Some(Pending)
    else if v == "running" then Some(Running)
    else if v == "completed" then Some(Completed)
    else None
  }

  /** The three values are distinct and each reads back as itself. */
  lemma StateValueRoundTrip(s: TaskState)
    ensures ParseState(StateValue(s)) == Some(s)
  {
  }

  /** A crawl task. `id` is the primary key, absent until the row is stored.
      The creation timestamp carries no behaviour and is not modelled. */
  datatype Task = Task(
    id: Option<int>,
    url: string,
    maxDepth: int,
    domains: seq<string>,
    blacklist: seq<string>,
    state: TaskState)

  /** Why a task failed validation. */
  datatype ValidationError = MaxDepthBelowOne(given: int)

  /** Building a validated `Task` from the fields a caller supplies; an omitted
      field (`None`) takes its declared default. `max_depth` carries the
      constraint `ge=1`, which pydantic checks when the model is validated. */
  function NewTask(
    url: string,
    maxDepth: Option<int>,
    domains: Option<seq<string>>,
    blacklist: Option<seq<string>>,
    state: Option<TaskState>): (r: Result<Task, ValidationError>)
    ensures r.Ok? <==> maxDepth.None? || maxDepth.value >= 1
    ensures r.Ok? ==> r.value.id.None? && r.value.url == url && r.value.maxDepth >= 1
    ensures maxDepth.None? ==> r.Ok? && r.value.maxDepth == 1
    ensures r.Ok? && maxDepth.Some? ==> r.value.maxDepth == maxDepth.value
    ensures r.Ok? && domains.None? ==> r.value.domains == []
    ensures r.Ok? && blacklist.None? ==> r.value.blacklist == []
    ensures r.Ok? && state.None? ==> r.value.state == Pending
    ensures r.Err? ==> r.error == MaxDepthBelowOne(maxDepth.value)
  {
    var depth := maxDepth.GetOr(1);
    if depth < 1 then Err(MaxDepthBelowOne(depth))
    else Ok(Task(None, url, depth, domains.GetOr([]), blacklist.GetOr([]), state.GetOr(Pending)))
  }

  /** The record of one crawled URL. `statusCode`, `contentSize` and
      `contentTitle` may be absent; `taskId` references the owning task. */
  datatype CrawletUrl = CrawletUrl(
    id: Option<int>,
    url: string,
    statusCode: Option<int>,
    contentSize: Option<int>,
    contentTitle: Option<string>,
    taskId: Option<int>,
    links: seq<string>)

  /** `CrawletUrl(url=..., status_code=...)`: every other field takes its default. */
  function NewCrawletUrl(url: string, statusCode: Option<int>): (r: CrawletUrl)
    ensures r.url == url && r.statusCode == statusCode
    ensures r.id.None? && r.taskId.None?
    ensures r.contentSize.None? && r.contentTitle.None? && r.links == []
    ensures WellFormedRecord(r)
  {
    CrawletUrl(None, url, statusCode, None, None, None, [])
  }

  /** The invariant of a page record: size and title are present together, only
      for a 200 response, and a record without content has no links. */
  predicate WellFormedRecord(rec: CrawletUrl) {
    && (rec.contentSize.Some? <==> rec.contentTitle.Some?)
    && (rec.contentSize.Some? ==> rec.statusCode == Some(200))
    && (rec.contentSize.None? ==> rec.links == [])
  }
}

=== FILE: repositories.dfy ===
/** The repositories of backend/storage/repositories.py over an in-memory store:
    a table is the sequence of its rows in scan order, the order a query
    without `ORDER BY` returns them in, and each operation is one atomic
    transaction that either returns the new table or raises. Both tables have
    an integer primary key, so SQLite scans them in id order. */
module Repositories {
  import opened Wrappers
  import opened Models

  /** What a repository operation can raise. */
  datatype StoreError =
    | InstanceNotFound  // `update`: no stored row has the instance's id
    | IntegrityError    // an insert with an explicit id already in use

  type TaskTable = seq<Task>
  type UrlTable = seq<CrawletUrl>

  /** The primary-key constraint on the task table: every row has an id and no
      two rows share one. */
  predicate TasksKeyed(tasks: TaskTable) {
    && (forall i :: 0 <= i < |tasks| ==> tasks[i].id.Some?)
    && (forall i, j :: 0 <= i < j < |tasks| ==> tasks[i].id != tasks[j].id)
  }

  /** The primary-key constraint on the crawled-URL table. */
  predicate UrlsKeyed(urls: UrlTable) {
    && (forall i :: 0 <= i < |urls| ==> urls[i].id.Some?)
    && (forall i, j :: 0 <= i < j < |urls| ==> urls[i].id != urls[j].id)
  }

  // ---------------------------------------------------------------------------
  // get_list / get_list_by_state
  // ---------------------------------------------------------------------------

  /** Where `OFFSET offset` starts in a table of `n` rows (SQLite reads a
      negative offset as 0). */
  function StartAt(n: nat, offset: int): (r: nat)
    ensures r <= n
    ensures 0 <= offset <= n ==> r == offset
    ensures offset < 0 ==> r == 0
    ensures offset > n ==> r == n
  {
    if offset <= 0 then 0 else if offset >= n then n else offset
  }

  /** `get_list(offset, limit)`: `SELECT ... OFFSET offset LIMIT limit`, the rows
      in positions [offset, offset + limit) of the table in scan order
      (SQLite reads a negative limit as "no limit"). */
  function GetList<T>(rows: seq<T>, offset: int, limit: int): (r: seq<T>)
    ensures limit >= 0 ==> |r| <= limit
    ensures forall i :: 0 <= i < |r| ==> StartAt(|rows|, offset) + i < |rows| && r[i] == rows[StartAt(|rows|, offset) + i]
    ensures StartAt(|rows|, offset) + |r| == |rows| || (limit >= 0 && |r| == limit)
  {
    var s := StartAt(|rows|, offset);
    var e := if limit < 0 || s + limit >= |rows| then |rows| else s + limit;
    rows[s..e]
  }

  /** The rows of `tasks` whose state is `state`, in scan order. */
  function WithState(tasks: TaskTable, state: TaskState): (r: TaskTable)
    ensures |r| <= |tasks|
    ensures forall t :: t in r <==> t in tasks && t.state == state
  {
    if |tasks| == 0 then []
    else
      assert forall t :: t in tasks <==> t == tasks[0] || t in tasks[1..];
      (if tasks[0].state == state then [tasks[0]] else []) + WithState(tasks[1..], state)
  }

  /** Filtering keeps scan order: the matching rows of two consecutive
      stretches of the table are those of the first followed by those of the
      second. */
  lemma {:induction false} WithStateAppend(a: TaskTable, b: TaskTable, state: TaskState)
    ensures WithState(a + b, state) == WithState(a, state) + WithState(b, state)
    decreases |a|
  {
    if |a| == 0 {
      assert a + b == b;
    } else {
      assert (a + b)[0] == a[0];
      assert (a + b)[1..] == a[1..] + b;
      WithStateAppend(a[1..], b, state);
    }
  }

  /** `get_list_by_state(state, offset, limit)`: `WHERE state = :state`, then
      the offset/limit window. Only rows in that state are returned, at most
      `limit` of them; a window that covers the whole table returns them all. */
  function GetListByState(tasks: TaskTable, state: TaskState, offset: int, limit: int): (r: TaskTable)
    ensures forall t :: t in r ==> t in tasks && t.state == state
    ensures limit >= 0 ==> |r| <= limit
    ensures offset <= 0 && (limit < 0 || limit >= |tasks|) ==>
      forall t :: t in tasks && t.state == state ==> t in r
  {
    var matching := WithState(tasks, state);
    var r := GetList(matching, offset, limit);
    assert forall t :: t in r ==> t in matching;
    if offset <= 0 && (limit < 0 || limit >= |tasks|) then
      assert r == matching;
      r
    else r
  }

  // ---------------------------------------------------------------------------
  // get_to_run
  // ---------------------------------------------------------------------------

  /** Position of the first PENDING task: what `WHERE state = 'pending' LIMIT 1`
      yields when rows come back in scan order. */
  function FirstPending(tasks: TaskTable): (r: Option<nat>)
    ensures r.None? <==> forall i :: 0 <= i < |tasks| ==> tasks[i].state != Pending
    ensures r.Some? ==> r.value < |tasks| && tasks[r.value].state == Pending
    ensures r.Some? ==> forall j :: 0 <= j < r.value ==> tasks[j].state != Pending
  {
    if |tasks| == 0 then None
    else if tasks[0].state == Pending then Some(0)
    else match FirstPending(tasks[1..])
      case None => None
      case Some(i) => Some(i + 1)
  }

  /** The outcome of a claim: the task handed out, if any, and the table after. */
  datatype Claim = Claim(task: Option<Task>, tasks: TaskTable)

  /** `get_to_run()`: in one transaction, pick a PENDING task, store it as
      RUNNING and return it (the task itself, as refreshed after the commit);
      when no task is PENDING, return None and change nothing. */
  function GetToRun(tasks: TaskTable): (c: Claim)
    ensures |c.tasks| == |tasks|
    ensures c.task.None? <==> forall i :: 0 <= i < |tasks| ==> tasks[i].state != Pending
    ensures c.task.None? ==> c.tasks == tasks
    ensures c.task.Some? ==> exists i :: 0 <= i < |tasks| && ClaimedAt(tasks, c, i)
  {
    match FirstPending(tasks)
    case None => Claim(None, tasks)
    case Some(i) =>
      var claimed := tasks[i].(state := Running);
      var c := Claim(Some(claimed), tasks[i := claimed]);
      assert ClaimedAt(tasks, c, i);
      c
  }

  /** The claim handed out the task at position `i`: it was PENDING, it is now
      stored as RUNNING with every other field kept, it is what was returned,
      and every other row is unchanged. */
  ghost predicate ClaimedAt(tasks: TaskTable, c: Claim, i: nat)
    requires i < |tasks| && |c.tasks| == |tasks|
  {
    && tasks[i].state == Pending
    && c.task == Some(c.tasks[i])
    && c.tasks[i] == tasks[i].(state := Running)
    && (forall j :: 0 <= j < |tasks| && j != i ==> c.tasks[j] == tasks[j])
  }

  /** A claim keeps the primary keys. */
  lemma GetToRunKeepsKeys(tasks: TaskTable)
    requires TasksKeyed(tasks)
    ensures TasksKeyed(GetToRun(tasks).tasks)
    ensures forall i :: 0 <= i < |tasks| ==> GetToRun(tasks).tasks[i].id == tasks[i].id
  {
  }

  /** Two claims in a row never hand out the same task. */
  lemma GetToRunTwiceDistinct(tasks: TaskTable)
    requires TasksKeyed(tasks)
    ensures var c1 := GetToRun(tasks);
      var c2 := GetToRun(c1.tasks);
      c1.task.Some? && c2.task.Some? ==> c1.task.value.id != c2.task.value.id
  {
    var c1 := GetToRun(tasks);
    var c2 := GetToRun(c1.tasks);
    if c1.task.Some? && c2.task.Some? {
      var i :| 0 <= i < |tasks| && ClaimedAt(tasks, c1, i);
      var j :| 0 <= j < |c1.tasks| && ClaimedAt(c1.tasks, c2, j);
      assert i != j;
      GetToRunKeepsKeys(tasks);
    }
  }

  // ---------------------------------------------------------------------------
  // update
  // ---------------------------------------------------------------------------

  /** The argument of `update` as pydantic sees it: the id used for the lookup,
      and each other field present only if it was explicitly set on the
      instance (`model_dump(exclude_unset=True)`). */
  datatype TaskPatch = TaskPatch(
    id: Option<int>,
    url: Option<string>,
    maxDepth: Option<int>,
    domains: Option<seq<string>>,
    blacklist: Option<seq<string>>,
    state: Option<TaskState>)

  /** `setattr` of every set field onto the stored row. */
  function ApplyPatch(t: Task, p: TaskPatch): (r: Task)
    ensures r.id == t.id
    ensures r.url == p.url.GetOr(t.url) && r.maxDepth == p.maxDepth.GetOr(t.maxDepth)
    ensures r.domains == p.domains.GetOr(t.domains) && r.blacklist == p.blacklist.GetOr(t.blacklist)
    ensures r.state == p.state.GetOr(t.state)
  {
    Task(t.id, p.url.GetOr(t.url), p.maxDepth.GetOr(t.maxDepth), p.domains.GetOr(t.domains),
      p.blacklist.GetOr(t.blacklist), p.state.GetOr(t.state))
  }

  /** Applying the same patch twice changes nothing more than applying it once. */
  lemma ApplyPatchIdempotent(t: Task, p: TaskPatch)
    ensures ApplyPatch(ApplyPatch(t, p), p) == ApplyPatch(t, p)
  {
  }

  /** A patch with no field set leaves the stored row as it is; a patch that
      sets only the state changes nothing but the state. */
  lemma ApplyPatchFrame(t: Task, p: TaskPatch)
    ensures p.url.None? && p.maxDepth.None? && p.domains.None? && p.blacklist.None? ==>
      ApplyPatch(t, p) == t.(state := p.state.GetOr(t.state))
    ensures p.url.None? && p.maxDepth.None? && p.domains.None? && p.blacklist.None? && p.state.None? ==>
      ApplyPatch(t, p) == t
  {
  }

  /** Position of the row with primary key `id` (`session.get`). */
  function Lookup(tasks: TaskTable, id: Option<int>): (r: Option<nat>)
    ensures r.None? <==> id.None? || forall i :: 0 <= i < |tasks| ==> tasks[i].id != id
    ensures r.Some? ==> r.value < |tasks| && tasks[r.value].id == id && id.Some?
  {
    if id.None? then None
    else if |tasks| == 0 then None
    else if tasks[0].id == id then Some(0)
    else match Lookup(tasks[1..], id)
      case None => None
      case Some(i) => Some(i + 1)
  }

  /** `update(instance)`: raises "Instance not found" when no row has the
      instance's id (a missing id finds nothing either); otherwise overwrites
      exactly the set fields of that row and leaves every other row as it was. */
  function Update(tasks: TaskTable, patch: TaskPatch): (r: Result<TaskTable, StoreError>)
    ensures r.Err? <==> patch.id.None? || forall i :: 0 <= i < |tasks| ==> tasks[i].id != patch.id
    ensures r.Err? ==> r.error == InstanceNotFound
    ensures r.Ok? ==> |r.value| == |tasks| && UpdatedAtSome(tasks, patch, r.value)
  {
    match Lookup(tasks, patch.id)
    case None => Err(InstanceNotFound)
    case Some(i) =>
      var updated := tasks[i := ApplyPatch(tasks[i], patch)];
      assert UpdatedAt(tasks, patch, updated, i);
      Ok(updated)
  }

  /** Some row with the patch's id has had the patch applied, and every other
      row is as it was. */
  ghost predicate UpdatedAtSome(tasks: TaskTable, patch: TaskPatch, r: TaskTable)
    requires |r| == |tasks|
  {
    exists i :: 0 <= i < |tasks| && tasks[i].id == patch.id && UpdatedAt(tasks, patch, r, i)
  }

  predicate UpdatedAt(tasks: TaskTable, patch: TaskPatch, r: TaskTable, i: nat)
    requires i < |tasks| == |r|
  {
    && r[i] == ApplyPatch(tasks[i], patch)
    && forall j :: 0 <= j < |tasks| && j != i ==> r[j] == tasks[j]
  }

  /** Under the primary-key constraint the updated row is the one with the
      patch's id, every field the patch does not set keeps its stored value,
      and the keys are kept. */
  lemma UpdateKeyed(tasks: TaskTable, patch: TaskPatch)
    requires TasksKeyed(tasks)
    requires Update(tasks, patch).Ok?
    ensures var r := Update(tasks, patch).value;
      && TasksKeyed(r)
      && forall i :: 0 <= i < |tasks| ==>
        && r[i].id == tasks[i].id
        && (tasks[i].id == patch.id ==> r[i] == ApplyPatch(tasks[i], patch))
        && (tasks[i].id != patch.id ==> r[i] == tasks[i])
  {
    var r := Update(tasks, patch).value;
    var k :| 0 <= k < |tasks| && tasks[k].id == patch.id && UpdatedAt(tasks, patch, r, k);
    forall i | 0 <= i < |tasks| ensures tasks[i].id == patch.id ==> i == k {
    }
  }

  // ---------------------------------------------------------------------------
  // save_many
  // ---------------------------------------------------------------------------

  /** The largest id in the table, if any row has one. */
  function MaxId(urls: UrlTable): (r: Option<int>)
    ensures r.None? <==> forall i :: 0 <= i < |urls| ==> urls[i].id.None?
    ensures r.Some? ==> forall i :: 0 <= i < |urls| && urls[i].id.Some? ==> urls[i].id.value <= r.value
    ensures r.Some? ==> exists i :: 0 <= i < |urls| && urls[i].id == r
  {
    if |urls| == 0 then None
    else
      var rest := MaxId(urls[1..]);
      assert forall i :: 1 <= i < |urls| ==> urls[i] == urls[1..][i - 1];
      match (urls[0].id, rest)
      case (None, _) => rest
      case (Some(a), None) => Some(a)
      case (Some(a), Some(b)) => Some(if a >= b then a else b)
  }

  /** The id SQLite gives a row inserted without one: one more than the
      largest id in the table, or 1 in a table without ids. */
  function NextId(urls: UrlTable): (r: int)
    ensures forall i :: 0 <= i < |urls| && urls[i].id.Some? ==> urls[i].id.value < r
  {
    match MaxId(urls)
    case None => 1
    case Some(m) => m + 1
  }

  /** A row whose id is larger than `id`. */
  predicate IdAbove(row: CrawletUrl, id: int) {
    row.id.Some? && row.id.value > id
  }

  /** The URL table as SQLite keeps a rowid table: every row has an id, and
      ids strictly increase along the table, which is the order a scan
      without `ORDER BY` returns. */
  predicate InRowidOrder(urls: UrlTable) {
    && (forall i :: 0 <= i < |urls| ==> urls[i].id.Some?)
    && (forall i, j :: 0 <= i < j < |urls| ==> IdAbove(urls[j], urls[i].id.GetOr(0)))
  }

  /** Where a row with id `id` falls in rowid order: before the first row
      with a larger id, or last when there is none. */
  function Slot(urls: UrlTable, id: int): (p: nat)
    ensures p <= |urls|
    ensures forall i :: 0 <= i < p ==> !IdAbove(urls[i], id)
    ensures p < |urls| ==> IdAbove(urls[p], id)
    decreases |urls|
  {
    if |urls| == 0 || IdAbove(urls[0], id) then 0
    else
      var p := 1 + Slot(urls[1..], id);
      assert forall i :: 1 <= i < p ==> urls[i] == urls[1..][i - 1];
      p
  }

  /** `after` is `urls` with `rec` stored at position `p`: the row there has
      an id no other row has and is otherwise `rec`, no row before it has a
      larger id, and the row after it, if any, does. */
  predicate InsertedAt(urls: UrlTable, after: UrlTable, p: nat, rec: CrawletUrl) {
    && p <= |urls| && |after| == |urls| + 1
    && (forall i :: 0 <= i < p ==> after[i] == urls[i])
    && (forall i :: p < i < |after| ==> after[i] == urls[i - 1])
    && SavedAs(after[p], rec)
    && (forall i :: 0 <= i < |urls| ==> urls[i].id != after[p].id)
    && (forall i :: 0 <= i < p ==> !IdAbove(urls[i], after[p].id.value))
    && (p < |urls| ==> IdAbove(urls[p], after[p].id.value))
  }

  /** Inserting one record. A record with an id already in the table is an
      integrity error; otherwise the table grows by one row (`InsertPlaces`
      says where). */
  function Insert(urls: UrlTable, rec: CrawletUrl): (r: Result<UrlTable, StoreError>)
    ensures r.Err? <==> rec.id.Some? && exists i :: 0 <= i < |urls| && urls[i].id == rec.id
    ensures r.Err? ==> r.error == IntegrityError
    ensures r.Ok? ==> |r.value| == |urls| + 1
  {
    if rec.id.Some? && exists i :: 0 <= i < |urls| && urls[i].id == rec.id then Err(IntegrityError)
    else
      var stored := if rec.id.Some? then rec else rec.(id := Some(NextId(urls)));
      var p := Slot(urls, stored.id.value);
      Ok(urls[..p] + [stored] + urls[p..])
  }

  /** Where an insert puts the record: a record without an id gets the next
      one and lands last; a record with an unused id keeps it and lands in
      rowid order. */
  lemma InsertPlaces(urls: UrlTable, rec: CrawletUrl)
    requires Insert(urls, rec).Ok?
    ensures exists p :: InsertedAt(urls, Insert(urls, rec).value, p, rec)
    ensures rec.id.None? ==> InsertedAt(urls, Insert(urls, rec).value, |urls|, rec)
  {
    var stored := if rec.id.Some? then rec else rec.(id := Some(NextId(urls)));
    var p := Slot(urls, stored.id.value);
    var after := urls[..p] + [stored] + urls[p..];
    assert after == Insert(urls, rec).value;
    forall i | 0 <= i < p ensures after[i] == urls[i] {
      assert after[i] == urls[..p][i];
    }
    forall i | p < i < |after| ensures after[i] == urls[i - 1] {
      assert after[i] == urls[p..][i - p - 1];
    }
    assert InsertedAt(urls, after, p, rec);
  }

  /** An insert keeps the keys unique and the table in rowid order. */
  lemma InsertKeeps(urls: UrlTable, rec: CrawletUrl)
    requires Insert(urls, rec).Ok?
    ensures UrlsKeyed(urls) ==> UrlsKeyed(Insert(urls, rec).value)
    ensures InRowidOrder(urls) ==> InRowidOrder(Insert(urls, rec).value)
  {
    InsertPlaces(urls, rec);
    var after := Insert(urls, rec).value;
    var p :| InsertedAt(urls, after, p, rec);
    if UrlsKeyed(urls) {
      forall i, j | 0 <= i < j < |after| ensures after[i].id != after[j].id {
        if i != p && j != p {
          assert after[i] == urls[if i < p then i else i - 1];
          assert after[j] == urls[if j < p then j else j - 1];
        }
      }
    }
    if InRowidOrder(urls) {
      forall i, j | 0 <= i < j < |after| ensures IdAbove(after[j], after[i].id.GetOr(0)) {
        InsertOrdered(urls, after, p, rec, i, j);
      }
    }
  }

  /** One pair of rows of an insertion into a table in rowid order. */
  lemma InsertOrdered(urls: UrlTable, after: UrlTable, p: nat, rec: CrawletUrl, i: nat, j: nat)
    requires InsertedAt(urls, after, p, rec) && InRowidOrder(urls)
    requires i < j < |after|
    ensures IdAbove(after[j], after[i].id.GetOr(0))
  {
    var id := after[p].id.value;
    if j == p {
      assert after[i] == urls[i] && urls[i].id.Some? && !IdAbove(urls[i], id);
    } else if i == p {
      assert after[j] == urls[j - 1];
      if j - 1 > p {
        assert IdAbove(urls[j - 1], urls[p].id.GetOr(0));
      }
    } else {
      assert after[i] == urls[if i < p then i else i - 1];
      assert after[j] == urls[if j < p then j else j - 1];
    }
  }

  /** A row inserted with an explicit id below the largest one is scanned
      before the larger ids: `get_list(0, 1)` on a table holding id 5, after
      inserting id 2, returns the id-2 row. */
  lemma InsertBelowExample()
    ensures var a := CrawletUrl(Some(5), "http://a.com", Some(200), None, None, None, []);
            var b := CrawletUrl(Some(2), "http://b.com", Some(200), None, None, None, []);
            Insert([a], b) == Ok([b, a]) && GetList(Insert([a], b).value, 0, 1) == [b]
  {
    var a := CrawletUrl(Some(5), "http://a.com", Some(200), None, None, None, []);
    var b := CrawletUrl(Some(2), "http://b.com", Some(200), None, None, None, []);
    assert Slot([a], 2) == 0;
    assert [a][..0] + [b] + [a][0..] == [b, a];
  }

  /** `row` is `rec` as stored: it has an id and is otherwise `rec`. */
  predicate SavedAs(row: CrawletUrl, rec: CrawletUrl) {
    row.id.Some? && row.(id := rec.id) == rec
  }

  /** No record of the batch carries an explicit id. */
  predicate NoIds(records: seq<CrawletUrl>) {
    forall k :: 0 <= k < |records| ==> records[k].id.None?
  }

  /** `save_many(records)`: one transaction inserting every record in order;
      if any insert fails the whole batch is rolled back. Records without ids
      are appended in order, each with an id and otherwise as given. */
  function SaveMany(urls: UrlTable, records: seq<CrawletUrl>): (r: Result<UrlTable, StoreError>)
    ensures NoIds(records) ==> r.Ok?
    ensures r.Ok? ==> |r.value| == |urls| + |records|
    ensures r.Ok? && NoIds(records) ==> r.value[..|urls|] == urls
    ensures r.Ok? && NoIds(records) ==> forall k :: 0 <= k < |records| ==> SavedAs(r.value[|urls| + k], records[k])
    decreases |records|
  {
    if |records| == 0 then Ok(urls)
    else
      match Insert(urls, records[0])
      case Err(e) => Err(e)
      case Ok(next) =>
        NoIdsTail(records);
        var r := SaveMany(next, records[1..]);
        if r.Ok? && NoIds(records) then
          SaveManyCons(urls, records, next, r.value);
          r
        else r
  }

  /** A batch save keeps the keys unique and the table in rowid order. */
  lemma {:induction false} SaveManyKeeps(urls: UrlTable, records: seq<CrawletUrl>)
    requires SaveMany(urls, records).Ok?
    ensures UrlsKeyed(urls) ==> UrlsKeyed(SaveMany(urls, records).value)
    ensures InRowidOrder(urls) ==> InRowidOrder(SaveMany(urls, records).value)
    decreases |records|
  {
    if |records| > 0 {
      InsertKeeps(urls, records[0]);
      SaveManyKeeps(Insert(urls, records[0]).value, records[1..]);
    }
  }

  /** Dropping the first record of a batch without ids leaves one without ids. */
  lemma NoIdsTail(records: seq<CrawletUrl>)
    requires |records| > 0
    ensures NoIds(records) ==> NoIds(records[1..])
  {
    if NoIds(records) {
      forall k | 0 <= k < |records| - 1 ensures records[1..][k].id.None? {
        assert records[1..][k] == records[k + 1];
      }
    }
  }

  /** The batch step for records without ids: inserting the first record,
      then the rest, appends the whole batch. */
  lemma SaveManyCons(urls: UrlTable, records: seq<CrawletUrl>, next: UrlTable, after: UrlTable)
    requires |records| > 0 && NoIds(records) && Insert(urls, records[0]) == Ok(next)
    requires |after| == |next| + |records| - 1 && after[..|next|] == next
    requires NoIds(records[1..]) ==> forall k :: 0 <= k < |records| - 1 ==> SavedAs(after[|next| + k], records[1..][k])
    ensures |after| == |urls| + |records| && after[..|urls|] == urls
    ensures forall k :: 0 <= k < |records| ==> SavedAs(after[|urls| + k], records[k])
  {
    NoIdsTail(records);
    InsertPlaces(urls, records[0]);
    assert InsertedAt(urls, next, |urls|, records[0]);
    assert next[..|urls|] == urls;
    assert after[..|urls|] == next[..|urls|];
    forall k | 0 <= k < |records| ensures SavedAs(after[|urls| + k], records[k]) {
      if k == 0 {
        assert after[|urls|] == next[|urls|];
      } else {
        assert records[k] == records[1..][k - 1];
        assert after[|urls| + k] == after[|next| + (k - 1)];
      }
    }
  }
}

=== FILE: seqs.dfy ===
/** Facts about sequences shared by the crawl and the task life cycle. */
module Seqs {

  /** No element occurs twice. */
  predicate Distinct<T(==)>(xs: seq<T>) {
    forall a, b :: 0 <= a < b < |xs| ==> xs[a] != xs[b]
  }

  /** A new element in front of a list without repeats keeps it without repeats. */
  lemma DistinctCons<T>(x: T, xs: seq<T>)
    requires Distinct(xs) && x !in xs
    ensures Distinct([x] + xs)
  {
    var all := [x] + xs;
    forall a, b | 0 <= a < b < |all| ensures all[a] != all[b] {
      assert all[b] == xs[b - 1];
      if a > 0 {
        assert all[a] == xs[a - 1];
      }
    }
  }
}

=== FILE: urls.dfy ===
/** The part of Python's `urllib.parse.urlparse` that the link normalizer reads
    (scheme, netloc and path of a base URL), and the string prefix test it uses. */
module Urls {

  /** `s.startswith(p)`. */
  predicate StartsWith(s: string, p: string) {
    |p| <= |s| && s[..|p|] == p
  }

  /** `s.endswith(p)`. */
  predicate EndsWith(s: string, p: string) {
    |p| <= |s| && s[|s| - |p|..] == p
  }

  /** Index of the first occurrence of `c` in `s`, or `|s|` when there is none
      (Python's `find` reports -1 instead). */
  function Find(s: string, c: char): (r: nat)
    ensures r <= |s|
    ensures r < |s| <==> c in s
    ensures r < |s| ==> s[r] == c
    ensures forall j :: 0 <= j < r ==> s[j] != c
  {
    if |s| == 0 then 0 else if s[0] == c then 0 else 1 + Find(s[1..], c)
  }

  /** Index of the last occurrence of `c` in `s`, or 0 when there is none. */
  function RFind(s: string, c: char): (r: nat)
    ensures r <= |s|
    ensures c in s ==> r < |s| && s[r] == c && forall j :: r < j < |s| ==> s[j] != c
  {
    if |s| == 0 then 0
    else if s[|s| - 1] == c then |s| - 1
    else RFind(s[..|s| - 1], c)
  }

  /** WHATWG "C0 control or space": the characters `urlsplit` strips from the front. */
  predicate IsC0OrSpace(c: char) {
    c <= ' '
  }

  /** `url.lstrip(_WHATWG_C0_CONTROL_OR_SPACE)`. */
  function LStrip(s: string): (r: string)
    ensures |r| <= |s| && r == s[|s| - |r|..]
    ensures |r| > 0 ==> !IsC0OrSpace(r[0])
    ensures forall j :: 0 <= j < |s| - |r| ==> IsC0OrSpace(s[j])
  {
    if |s| > 0 && IsC0OrSpace(s[0]) then
      var r := LStrip(s[1..]);
      assert forall j :: 1 <= j < |s| - |r| ==> s[j] == s[1..][j - 1];
      r
    else s
  }

  /** The characters `urlsplit` deletes anywhere in the URL: tab, CR and LF. */
  predicate IsUnsafe(c: char) {
    c == '\t' || c == '\r' || c == '\n'
  }

  /** Removing every tab, CR and LF; a string without them is left as it is. */
  function RemoveUnsafe(s: string): (r: string)
    ensures |r| <= |s|
    ensures (forall j :: 0 <= j < |s| ==> !IsUnsafe(s[j])) ==> r == s
  {
    if |s| == 0 then ""
    else
      assert [s[0]] + s[1..] == s;
      (if IsUnsafe(s[0]) then "" else [s[0]]) + RemoveUnsafe(s[1..])
  }

  predicate IsAsciiAlpha(c: char) {
    ('a' <= c <= 'z') || ('A' <= c <= 'Z')
  }

  /** `scheme_chars`: ASCII letters, digits and "+-.". */
  predicate IsSchemeChar(c: char) {
    IsAsciiAlpha(c) || ('0' <= c <= '9') || c == '+' || c == '-' || c == '.'
  }

  /** ASCII lower-casing of one character. */
  function LowerChar(c: char): char {
    if 'A' <= c <= 'Z' then (c as int + 32) as char else c
  }

  /** ASCII lower-casing; exact for scheme characters, which are all ASCII. */
  function Lower(s: string): (r: string)
    ensures |r| == |s|
    ensures forall j :: 0 <= j < |s| && !('A' <= s[j] <= 'Z') ==> r[j] == s[j]
  {
    seq(|s|, j requires 0 <= j < |s| => LowerChar(s[j]))
  }

  /** The schemes for which `urlparse` splits `;params` off the path. */
  const UsesParams: set<string> := {"", "ftp", "hdl", "prospero", "http", "imap", "https",
    "shttp", "rtsp", "rtsps", "rtspu", "sip", "sips", "mms", "sftp", "tel"}

  /** The six components `urlparse` returns. */
  datatype ParsedUrl = ParsedUrl(
    scheme: string, netloc: string, path: string, params: string, query: string, fragment: string)

  /** Scheme split: the text before the first ':' is the scheme when it is
      non-empty, starts with an ASCII letter and holds only scheme characters. */
  function SplitScheme(url: string): (r: (string, string))
    ensures r.0 == "" ==> r.1 == url
  {
    var i := Find(url, ':');
    if 0 < i < |url| && IsAsciiAlpha(url[0]) && (forall j :: 0 <= j < i ==> IsSchemeChar(url[j]))
    then (Lower(url[..i]), url[i + 1..])
    else ("", url)
  }

  /** `_splitnetloc(url, 2)`: the netloc runs up to the first '/', '?' or '#'. */
  function SplitNetloc(rest: string): (r: (string, string))
    requires |rest| >= 2
    ensures r.0 + r.1 == rest[2..]
    ensures '/' !in r.0 && '?' !in r.0 && '#' !in r.0
  {
    var tail := rest[2..];
    var delim := Min(Find(tail, '/'), Min(Find(tail, '?'), Find(tail, '#')));
    assert tail[..delim] + tail[delim..] == tail;
    BeforeFind(tail, '/', delim);
    BeforeFind(tail, '?', delim);
    BeforeFind(tail, '#', delim);
    (tail[..delim], tail[delim..])
  }

  /** Nothing before the first `c` is a `c`. */
  lemma BeforeFind(s: string, c: char, n: nat)
    requires n <= Find(s, c)
    ensures c !in s[..n]
  {
    forall j | 0 <= j < n ensures s[..n][j] != c {
      assert s[..n][j] == s[j];
    }
  }

  function Min(a: nat, b: nat): nat {
    if a <= b then a else b
  }

  /** `s.split(c, 1)` when `c` occurs; `(s, "")` otherwise. */
  function SplitOnce(s: string, c: char): (r: (string, string))
    ensures c !in r.0
    ensures c !in s ==> r == (s, "")
    ensures c in s ==> r.0 + [c] + r.1 == s
  {
    var i := Find(s, c);
    if i == |s| then (s, "")
    else
      assert s[..i] + [c] + s[i + 1..] == s;
      (s[..i], s[i + 1..])
  }

  /** `_splitparams`, reached only when ';' occurs in the path: the params start
      at the first ';' after the last '/', and there are none when no ';'
      follows it. */
  function SplitParams(path: string): (r: (string, string))
    ensures ';' !in path ==> r == (path, "")
  {
    if ';' !in path then (path, "")
    else
      var from := if '/' in path then RFind(path, '/') else 0;
      var i := from + Find(path[from..], ';');
      if i == |path| then (path, "") else (path[..i], path[i + 1..])
  }

  /** `urlparse(url)` with the default arguments, for URLs whose netloc is
      ASCII without square brackets (the IPv6 bracket and NFKC validations that
      may raise are not modelled). */
  function UrlParse(url: string): ParsedUrl {
    var (scheme, afterScheme) := SplitScheme(RemoveUnsafe(LStrip(url)));
    ParseAfterScheme(scheme, afterScheme)
  }

  /** Netloc, then the rest, once the scheme is known. */
  function ParseAfterScheme(scheme: string, rest: string): ParsedUrl {
    var (netloc, afterNetloc) :=
      if |rest| >= 2 && rest[..2] == "//" then SplitNetloc(rest) else ("", rest);
    ParsePathPart(scheme, netloc, afterNetloc)
  }

  /** Fragment, query and params, split off the part after the netloc. */
  function ParsePathPart(scheme: string, netloc: string, rest: string): (r: ParsedUrl)
    ensures '#' !in rest && '?' !in rest && ';' !in rest ==> r == ParsedUrl(scheme, netloc, rest, "", "", "")
  {
    var (beforeFragment, fragment) := SplitOnce(rest, '#');
    var (beforeQuery, query) := SplitOnce(beforeFragment, '?');
    var (path, params) :=
      if scheme in UsesParams then SplitParams(beforeQuery) else (beforeQuery, "");
    ParsedUrl(scheme, netloc, path, params, query, fragment)
  }

  /** `scheme://netloc` followed by `path`, the shape of an absolute URL. */
  function Join(scheme: string, netloc: string, path: string): string {
    scheme + "://" + netloc + path
  }

  /** A character of a simple netloc: printable ASCII other than the
      delimiters '/', '?', '#' and ';' and the IPv6 brackets '[' and ']'.
      `urlsplit` accepts such a netloc without validation: it checks brackets
      only when one is present, and NFKC-normalizes only non-ASCII netlocs. */
  predicate IsSimpleNetlocChar(c: char) {
    '!' <= c <= '~' && c != '/' && c != '?' && c != '#' && c != ';' && c != '[' && c != ']'
  }

  /** The base URLs the round trip covers: a lower-case alphabetic scheme, a
      netloc of simple netloc characters, a path that is empty or starts with
      '/', and no query, fragment, params, control characters or spaces. */
  predicate SimpleUrlParts(scheme: string, netloc: string, path: string) {
    && |scheme| > 0
    && (forall j :: 0 <= j < |scheme| ==> 'a' <= scheme[j] <= 'z')
    && (forall c :: c in netloc ==> IsSimpleNetlocChar(c))
    && (path == "" || path[0] == '/')
    && (forall c :: c in path ==> c != '?' && c != '#' && c != ';' && !IsC0OrSpace(c))
  }

  lemma {:induction false} FindAppend(a: string, b: string, c: char)
    requires c !in a
    ensures Find(a + b, c) == |a| + Find(b, c)
    decreases |a|
  {
    if |a| > 0 {
      assert (a + b)[1..] == a[1..] + b;
      FindAppend(a[1..], b, c);
    } else {
      assert a + b == b;
    }
  }

  /** Cleaning leaves a simple URL as it is. */
  lemma CleanJoin(scheme: string, netloc: string, path: string)
    requires SimpleUrlParts(scheme, netloc, path)
    ensures RemoveUnsafe(LStrip(Join(scheme, netloc, path))) == Join(scheme, netloc, path)
  {
    var url := Join(scheme, netloc, path);
    assert url[0] == scheme[0];
    assert LStrip(url) == url;
    forall j | 0 <= j < |url| ensures !IsUnsafe(url[j]) {
      assert url[j] in scheme || url[j] in "://" || url[j] in netloc || url[j] in path;
    }
  }

  /** The scheme of a simple URL is split off exactly. */
  lemma SplitSchemeJoin(scheme: string, netloc: string, path: string)
    requires SimpleUrlParts(scheme, netloc, path)
    ensures SplitScheme(Join(scheme, netloc, path)) == (scheme, "//" + netloc + path)
  {
    var url := Join(scheme, netloc, path);
    var tail := "//" + netloc + path;
    assert url == scheme + (":" + tail);
    FindAppend(scheme, ":" + tail, ':');
    assert url[..|scheme|] == scheme;
    assert url[|scheme| + 1..] == tail;
    assert url[0] == scheme[0];
    forall j | 0 <= j < |scheme| ensures IsSchemeChar(url[j]) {
      assert url[j] == scheme[j];
    }
    LowerIdentity(scheme);
    SplitSchemeAt(url, |scheme|);
  }

  /** When the first ':' ends a well-formed scheme, that scheme is split off. */
  lemma SplitSchemeAt(url: string, i: nat)
    requires i == Find(url, ':') && 0 < i < |url|
    requires IsAsciiAlpha(url[0]) && forall j :: 0 <= j < i ==> IsSchemeChar(url[j])
    ensures SplitScheme(url) == (Lower(url[..i]), url[i + 1..])
  {
  }

  /** The netloc of a simple URL is split off exactly. */
  lemma SplitNetlocJoin(netloc: string, path: string)
    requires forall c :: c in netloc ==> c != '/' && c != '?' && c != '#'
    requires path == "" || path[0] == '/'
    requires '?' !in path && '#' !in path
    ensures SplitNetloc("//" + netloc + path) == (netloc, path)
  {
    var t := netloc + path;
    assert ("//" + netloc + path)[2..] == t;
    FindAppend(netloc, path, '/');
    FindAppend(netloc, path, '?');
    FindAppend(netloc, path, '#');
    if path != "" {
      assert Find(path, '/') == 0;
    }
    assert t[..|netloc|] == netloc && t[|netloc|..] == path;
  }

  lemma ParseAfterSchemeJoin(scheme: string, netloc: string, path: string)
    requires SimpleUrlParts(scheme, netloc, path)
    ensures ParseAfterScheme(scheme, "//" + netloc + path) == ParsedUrl(scheme, netloc, path, "", "", "")
  {
    var tail := "//" + netloc + path;
    assert tail[..2] == "//";
    SplitNetlocJoin(netloc, path);
    assert ParsePathPart(scheme, netloc, path) == ParsedUrl(scheme, netloc, path, "", "", "");
  }

  /** Parsing `scheme://netloc/path` of a simple URL gives its parts back. */
  lemma UrlParseJoin(scheme: string, netloc: string, path: string)
    requires SimpleUrlParts(scheme, netloc, path)
    ensures UrlParse(Join(scheme, netloc, path)) == ParsedUrl(scheme, netloc, path, "", "", "")
  {
    CleanJoin(scheme, netloc, path);
    SplitSchemeJoin(scheme, netloc, path);
    ParseAfterSchemeJoin(scheme, netloc, path);
  }

  lemma {:induction false} LowerIdentity(s: string)
    requires forall j :: 0 <= j < |s| ==> 'a' <= s[j] <= 'z'
    ensures Lower(s) == s
  {
  }
}

=== FILE: worker.dfy ===
/** `execute_task` of backend/crawler/worker.py: crawl from the task's own URL
    and depth, tag every record with the task's id, save them in one batch,
    then store the task as COMPLETED. */
module Worker {
  import opened Wrappers
  import opened Models
  import opened Crawler
  import opened Crawl
  import opened Repositories

  /** The records of one crawl, each tagged with the id of the task that
      produced it. */
  function TagRecords(records: seq<CrawletUrl>, taskId: Option<int>): (r: seq<CrawletUrl>)
    ensures |r| == |records|
    ensures forall k :: 0 <= k < |r| ==> r[k].taskId == taskId && r[k].(taskId := records[k].taskId) == records[k]
  {
    seq(|records|, k requires 0 <= k < |records| => records[k].(taskId := taskId))
  }

  /** What `update` receives after `task.state = COMPLETED` on a task loaded
      from the store: its id, and `state` as the only field set on it. */
  function CompletionPatch(task: Task): (p: TaskPatch)
    ensures p.id == task.id && p.state == Some(Completed)
    ensures p.url.None? && p.maxDepth.None? && p.domains.None? && p.blacklist.None?
  {
    TaskPatch(task.id, None, None, None, None, Some(Completed))
  }

  /** Marking a task done: it fails when the task's id is not stored; otherwise
      the stored row with that id becomes COMPLETED with every other field
      kept, and no other row changes. */
  function CompleteTask(tasks: TaskTable, task: Task): (r: Result<TaskTable, StoreError>)
    ensures r.Err? <==> task.id.None? || forall i :: 0 <= i < |tasks| ==> tasks[i].id != task.id
    ensures r.Ok? ==> |r.value| == |tasks| && exists i :: 0 <= i < |tasks| && CompletedAt(tasks, task.id, r.value, i)
  {
    var r := Update(tasks, CompletionPatch(task));
    if r.Ok? then
      var i :| 0 <= i < |tasks| && tasks[i].id == task.id && UpdatedAt(tasks, CompletionPatch(task), r.value, i);
      assert CompletedAt(tasks, task.id, r.value, i);
      r
    else r
  }

  /** The row at `i` has id `id` and went to COMPLETED keeping its other
      fields; every other row is unchanged. */
  predicate CompletedAt(tasks: TaskTable, id: Option<int>, r: TaskTable, i: nat)
    requires i < |tasks| == |r|
  {
    && tasks[i].id == id
    && r[i] == tasks[i].(state := Completed)
    && forall j :: 0 <= j < |tasks| && j != i ==> r[j] == tasks[j]
  }

  /** `execute_task(task)` against a web and the two tables. Returns the urls
      crawled, the crawled-URL table after the batch save, and the task table
      after the completion update, or the update's error (the batch has been
      committed by then). */
  method ExecuteTask(web: Web, task: Task, tasks: TaskTable, urls: UrlTable)
    returns (crawled: seq<string>, savedUrls: UrlTable, updated: Result<TaskTable, StoreError>)
    ensures forall u :: u in crawled <==> task.maxDepth >= 1 && Within(LinkGraphOf(web), task.url, task.maxDepth - 1, u)
    ensures |savedUrls| == |urls| + |crawled| && savedUrls[..|urls|] == urls
    ensures forall k :: 0 <= k < |crawled| ==> SavedAs(savedUrls[|urls| + k], GetPageContent(web, crawled[k]).(taskId := task.id))
    ensures UrlsKeyed(urls) ==> UrlsKeyed(savedUrls)
    ensures InRowidOrder(urls) ==> InRowidOrder(savedUrls)
    ensures updated == CompleteTask(tasks, task)
    ensures updated.Err? <==> task.id.None? || forall i :: 0 <= i < |tasks| ==> tasks[i].id != task.id
  {
    var records;
    records, crawled := CrawlUrl(web, task.url, task.maxDepth);
    var tagged := TagRecords(records, task.id);
    assert NoIds(tagged) by {
      forall k | 0 <= k < |tagged| ensures tagged[k].id.None? {
        assert records[k] == GetPageContent(web, crawled[k]);
      }
    }
    var saved := SaveMany(urls, tagged);
    SaveManyKeeps(urls, tagged);
    savedUrls := saved.value;
    forall k | 0 <= k < |crawled|
      ensures SavedAs(savedUrls[|urls| + k], GetPageContent(web, crawled[k]).(taskId := task.id))
    {
      assert SavedAs(savedUrls[|urls| + k], tagged[k]);
      assert tagged[k].taskId == task.id;
      assert records[k] == GetPageContent(web, crawled[k]);
    }
    updated := CompleteTask(tasks, task);
  }
}

=== FILE: wrappers.dfy ===
/** The two failure-carrying shapes the model uses: a value that may be absent
    (Python's `None`) and the outcome of an operation that may raise. */
module Wrappers {

  /** A value that may be absent, standing for a Python `X | None`. */
  datatype Option<+T> = None | Some(value: T) {

    /** The value, or `default` when absent. */
    function GetOr(default: T): T {
      match this
      case Some(v) => v
      case None => default
    }
  }

  /** The outcome of an operation that either returns a value or raises. */
  datatype Result<+T, +E> = Ok(value: T) | Err(error: E)
}
